=== FILE: README.md ===
# CoffeePipeline preprocessing and validation, modelled in Dafny

CoffeePipeline downloads coffee-brewing logs and checks them before they go into
a SQLite table. The logs come from two apps: coffee.guru, a CSV export, and
Beanconqueror, a JSON backup. This project models what happens to one batch of
logs in `preprocess_data` of either loader, and what the validators in
`log_utils.py` accept and reject.

Both apps have a single free-text note field. The user writes the note in a
labelled format:

    Bean: <bean> / Grinder: <grinder> / Grind: <setting> / Flavor: <adverb adjective> / Balance: <adverb adjective>

`preprocess_data` processes one batch in three stages:

1. It deletes the weight unit (`" g"`) from the coffee.guru `Coffee` column.
2. It deletes the labels from the note, splits it at its slashes, and cleans the
   whitespace of each piece. The pieces become one column per field.
3. It validates the batch, stopping at the first failure, in this order:
   1. no required cell is missing;
   2. no score is 0;
   3. every flavor is one allowed adverb and one allowed adjective;
   4. every balance other than "Balanced" is one allowed adverb and one allowed adjective;
   5. every grinder has a configured range, and every grind setting is an integer within its grinder's range.

Modules, in dependency order:

- `Wrappers` — `Option`, `Result`, and `Outcome` (pass, or fail with an error).
- `Strings` — the character classes of Python's `\s` and `\d`. Also:
  - `RemoveAll`, the leftmost-first deletion that a regex alternation of
    literals performs (`(Bean:)|(Grinder:)|...`);
  - `Split` and `Join`;
  - left and right trims.
- `Patterns` — one explicit scan for each regular expression the loaders use:
  - `\s*\/\s*` split;
  - `^\s|\s$` deletion;
  - `\s{2,}` collapse;
  - the grinder-name key `re.sub(r'\s+|-', '_', name.lower())`.
- `IntParse` — Python's `int()` on a string, which is what `astype(int)` applies
  to text cells.
- `Frame` — the part of pandas the code relies on:
  - cells, with `None` for NaN;
  - columns and tables;
  - Series entries that keep their index label;
  - boolean-mask selection;
  - the errors each step raises.
- `Validators` — the four validators of `log_utils.py`.
- `Notes` — the notes parser and the `expand=True` split into named columns.
- `Pipeline` — `preprocess_data` of both loaders. The loaders differ only in
  their `Schema`: column names, labels, and the required-column list. Also the
  brewing-tool dictionary of the Beanconqueror loader.

Each operation has a partner that states what it means:

- Each regex scan is related to a declarative reading of the regex.
- The notes parser is proved to invert rendering (`Notes.ParseRender`).
- Each validator is characterised by a per-cell reference rule.
- The whole pipeline is proved to accept a batch exactly when every row satisfies
  the per-row reference rule (`Pipeline.ValidBatch`).

`Pipeline.Preprocess` uses the corrected `validate_text` and
`validate_grind_settings` (see "## Findings"). The pipeline exactly as written is
`Pipeline.PreprocessAsWritten`. It is proved to accept exactly what the corrected
pipeline accepts, except a batch whose every balance is "Balanced", which it
rejects.

## Model

| member | source | states |
|---|---|---|
| Strings.RemoveAllOnlyDeletesPatterns | load_coffee_logs.py:72-75 | Deleting the label alternation only removes whole occurrences of the labels: the result is the input with some label occurrences cut out and every other character kept, in order |
| Strings.RemoveAllFree | load_coffee_logs.py:72-75 | Text that contains no label is left unchanged by the label deletion |
| Strings.RemoveAllAppend | load_coffee_logs.py:72-75 | Text in which no label starts passes through the deletion untouched, and the deletion then continues on the rest. Together with `RemoveAllLeading` this makes labels be deleted wherever they occur, not only at the front |
| Strings.RemoveAllLeading | load_coffee_logs.py:72-75 | A label at the front that is the only alternative matching there is deleted, and the scan continues right after it |
| Strings.SplitJoin | load_coffee_logs.py:76 | Splitting on a separator inverts joining, for pieces that do not contain the separator |
| Patterns.SplitSlash | load_coffee_logs.py:76 | The regex split on a slash and its surrounding whitespace yields one piece more than there are slashes, and no piece contains a slash |
| Patterns.SplitSlashIsTrimmedSplit | load_coffee_logs.py:76 | The regex split equals the plain split at every slash, with each piece's whitespace trimmed on every side where it touched a slash |
| Patterns.SplitTrimLeft | load_coffee_logs.py:76 | Trimming the front of a string changes only the first of its slash-separated pieces |
| Patterns.StripEdgeIsRegexSub | load_coffee_logs.py:79 | The slice definition removes exactly the characters the edge regex matches: a leading whitespace character, a trailing one, and one just before a final newline |
| Patterns.CollapseSpec | load_coffee_logs.py:80 | After collapsing, no two whitespace characters are adjacent. The non-whitespace characters are the same, in the same order, and whether the text starts with whitespace is unchanged. Text without a double space is returned unchanged |
| Patterns.CollapseAppend | load_coffee_logs.py:80 | The collapse of two texts joined where no whitespace run crosses the seam is the two collapses joined. Each run is therefore handled on its own |
| Patterns.CollapseRun | load_coffee_logs.py:80 | A maximal run of two or more whitespace characters between visible text, of any length and mix of whitespace, becomes exactly one space |
| Patterns.CollapseSingle | load_coffee_logs.py:80 | A single whitespace character between visible text, a tab or newline included, is kept as it is |
| Patterns.NormalizeName | load_coffee_logs.py:108 | The grinder key contains no whitespace, no hyphen and no upper-case letter. Its letters other than `_`, `-` and whitespace are those of the name, lower-cased, in order |
| Patterns.NormalizeNameAppend | load_coffee_logs.py:108 | The key of two names joined where no whitespace run crosses the seam is the two keys joined |
| Patterns.NormalizeHyphen | load_coffee_logs.py:108 | Every hyphen becomes exactly one underscore, wherever it stands |
| Patterns.NormalizeSpaceRun | load_coffee_logs.py:108 | A maximal whitespace run of any length becomes exactly one underscore |
| Patterns.NormalizeNameLowers | load_coffee_logs.py:108 | On text with no whitespace and no hyphen the key is the text lower-cased, character by character |
| Patterns.NormalizeNameFixed | load_coffee_logs.py:108 | A name already in key form is its own key |
| Patterns.NormalizeNameIdempotent | load_coffee_logs.py:108 | Normalising a key again gives the same key |
| IntParse.ParseShowInt | log_utils.py:150 | `int(str(i)) == i` for every integer, so a setting written as plain decimal text converts back to its value |
| Notes.ParseNotes | load_coffee_logs.py:71-80 | A note gives one token more than the number of slashes left after the labels are deleted. No token contains a slash or two adjacent whitespace characters |
| Notes.ParseRender | load_coffee_logs.py:71-80 | Round trip: a note rendered in the labelled format parses back to exactly its fields. This holds for every field that has no slash, no label, no whitespace at either end and no double whitespace |
| Notes.ExpandNotes | load_coffee_logs.py:76-82 | Renaming the expanded columns fails exactly when the widest row's piece count differs from the number of names. On success the table has exactly the named columns, each as long as the notes column, and column `j` holds each row's `j`-th token |
| Notes.TooManySegments | load_coffee_logs.py:76-82 | A single note with as many slashes as there are field names makes the renaming fail |
| Notes.EmptyBatchFails | load_coffee_logs.py:76-82 | An empty batch has zero expanded columns, so the renaming fails |
| Notes.ShortRowsPadded | load_coffee_logs.py:76-82 | A row with fewer pieces than fields gets missing cells in the remaining field columns |
| Notes.RenderedRowsExpand | load_coffee_logs.py:71-82 | A column of notes rendered in the labelled format expands into field columns that hold exactly each row's fields |
| Validators.CheckNanValues | log_utils.py:10-35 | Passes exactly when every required column is present and has no missing cell. An absent column raises `KeyError` with that column's name. Otherwise the error reports, in required-list order, every column that has a missing cell, together with exactly its missing rows. Every reported column has at least one missing row |
| Validators.NanReportsCover | log_utils.py:18-29 | Every required column that has a missing cell appears in the report |
| Validators.CheckScores | log_utils.py:38-49 | Passes exactly when no score is 0. On failure it lists exactly the rows scored 0, in ascending order |
| Validators.RulesMatchReference | log_utils.py:84-110 | A row is flagged by one of the four checks exactly when its text is not one allowed adverb, a single space and one allowed adjective. The four checks are: bad adverb, blank adjective, bad adjective, extra word |
| Validators.Violations | log_utils.py:84-110 | The flagged entries are exactly the entries that break the reference rule |
| Validators.DropDuplicates | log_utils.py:113-115 | Deduplication keeps every distinct value once, and only entries from its input |
| Validators.ValidateTextAsWritten | log_utils.py:52-125 | As written: an empty column splits into no columns, so looking up `adverbs` raises `KeyError`. A non-empty column where no cell has two words splits into one column, so looking up `adjectives` raises `KeyError`. The format message queued first is never reached. It passes exactly when the column is non-empty and every cell is well worded. The invalid-values report lists every offending value, once each |
| Validators.ValidateText | log_utils.py:52-125 | Corrected: passes exactly when every cell is well worded, so an empty column passes and the `adverbs` lookup never fails. A non-empty column where no cell has two words still raises on `adjectives`, and the invalid-values report is the same as `ValidateTextAsWritten`'s |
| Validators.EmptyTextColumn | log_utils.py:76-90 | On an empty column the as-written validator raises `KeyError` on `adverbs` and the corrected one passes |
| Validators.CheckRange | log_utils.py:163-173 | Passes exactly when every converted setting is within [min, max]. On failure it lists every out-of-range value, converted, with its row |
| Validators.ValidateGrindSettingsAsWritten | log_utils.py:128-173 | As written: passes exactly when every cell converts with `int()` and lies within the range. A failure is a non-integer or an out-of-range report. A conversion failure lists every cell that is not already an integer. On a column that converts, the result is exactly the corrected `Validators.ValidateGrindSettings`, so a range failure reports every out-of-range value with its row and the bounds, as at log_utils.py:163-173 |
| Validators.ValidateGrindSettings | log_utils.py:128-173 | Corrected: the same acceptance. A conversion failure lists exactly the cells `int()` rejects, and a range failure lists every out-of-range value with its row |
| Validators.CoercibleTextReportedAsWritten | log_utils.py:147-157 | For the settings "18", "22" and "abc", the as-written report lists all three cells |
| Validators.OnlyUnreadableReported | log_utils.py:147-157 | For the same settings, the corrected report lists only "abc" |
| Pipeline.SchemasWellFormed | load_coffee_logs.py:72-91 | The coffee.guru labels meet everything the notes parser relies on: they are non-empty, contain no whitespace or slash, and none is a prefix of another. The field names are distinct, and every validated column except the grinder is required |
| Pipeline.BeanconquerorLabels | load_beanconqueror_logs.py:303-309 | The Beanconqueror labels `Flavor:` and `Balance:` are a valid label set |
| Pipeline.StripUnit | load_coffee_logs.py:68 | A cell is text after the unit deletion exactly when it was text before, and the text does not grow |
| Pipeline.StripUnitDeletesOnlyUnit | load_coffee_logs.py:68 | The unit deletion removes only occurrences of `" g"` and keeps every other character, in order |
| Pipeline.StripUnitOfWeight | load_coffee_logs.py:68 | A weight written as `<integer> g` becomes `<integer>` |
| Pipeline.StripUnitKeepsPlain | load_coffee_logs.py:68 | Text that does not contain `" g"` is unchanged |
| Pipeline.ParseStage | load_coffee_logs.py:68-85 | Succeeds exactly when the unit column and the note column are present and the expansion succeeds. The unit column holds each of its cells with `" g"` deleted. The result keeps every other column unchanged, drops the note column, and adds one column per field, holding that field's token of each note. Every failure is a missing column or a column-count mismatch |
| Pipeline.ParseStageRendered | load_beanconqueror_logs.py:301-318 | A batch whose notes are rendered in the labelled format parses, and each field column holds each row's field |
| Pipeline.Unique | load_coffee_logs.py:105 | The distinct grinders: exactly the values of the column, each once |
| Pipeline.GrinderCheck | load_coffee_logs.py:105-123 | A grinder cell that is not text fails (`.lower()` raises). A name with no configured range fails with that name. The grinder passes exactly when the grinder is known and every row using it has a setting that converts and lies within its range |
| Pipeline.SelectedSettingsReport | load_coffee_logs.py:119-123 | The settings check over the `eq(grinder)` rows reports only those rows: every one that does not convert, or else every one outside the given bounds, with those bounds |
| Pipeline.GrinderCheckReportsOwnRows | load_coffee_logs.py:113-123 | A grinder's report names only rows that use that grinder. A conversion report lists every row of that grinder whose setting does not convert. A range report has the grinder's own configured bounds and lists every row of that grinder whose setting is out of range |
| Pipeline.CheckGrinders | load_coffee_logs.py:105-123 | The loop over grinders passes exactly when every grinder's check passes. A failure is the failure of one of those grinders |
| Pipeline.BalanceStage | load_coffee_logs.py:98-101 | With the corrected `validate_text`: the balance check passes exactly when every balance cell is "Balanced" or well worded |
| Pipeline.GrinderStage | load_beanconqueror_logs.py:348-366 | The grinder loop passes exactly when every row's grinder is known and its setting is within that grinder's range |
| Pipeline.ValidateAcceptsValidBatches | load_coffee_logs.py:91-123 | With the corrected validators, the validation passes exactly when the batch satisfies the reference rule. The rule requires every required column present with no missing cell. Each row must be scored, its flavor well worded, its balance "Balanced" or well worded, and its grinder known with a setting inside that grinder's range |
| Pipeline.PreprocessAccepts | load_coffee_logs.py:48-125 | With the corrected validators, `preprocess_data` returns a table exactly when the notes parse and the parsed batch satisfies the reference rule. The table returned is the parsed one |
| Pipeline.MissingValuesFirst | load_coffee_logs.py:91 | A batch with a missing required value fails with the missing-values error, whatever else is wrong with it |
| Pipeline.UnscoredSecond | load_coffee_logs.py:91-92 | A batch with no missing value but a zero score fails with the unscored error |
| Pipeline.FlavorThird | load_coffee_logs.py:94-96 | A complete, scored batch with a badly worded flavor fails with the flavor column's text error |
| Pipeline.BalanceFourth | load_coffee_logs.py:98-101 | A batch whose flavors pass but whose balance breaks the rule fails with the error of the balance column, with "Balanced" rows excluded |
| Pipeline.GrindersLast | load_coffee_logs.py:103-123 | A batch that passes every text check but has a bad grinder or setting fails with a grinder error: not a name, unknown grinder, non-integer or out of range |
| Pipeline.UnbalancedSelection | load_coffee_logs.py:98-101 | The rows selected for the balance check are none exactly when every balance is "Balanced" |
| Pipeline.GrinderCheckAsWritten | load_coffee_logs.py:105-123 | With `validate_grind_settings` as written, one grinder passes exactly when it passes with the corrected validator. Any failure other than the non-integer report is the same failure |
| Pipeline.CheckGrindersAsWritten | load_coffee_logs.py:105-123 | The grinder loop as written passes exactly when the corrected loop passes. A failure is the as-written failure of one of the grinders |
| Pipeline.GrinderStepAsWritten | load_coffee_logs.py:103-123 | The grinder step as written passes exactly when the corrected one passes |
| Pipeline.TextStepAsWritten | load_coffee_logs.py:94-101 | The text checks as written pass exactly when the corrected ones pass, the flavor column has a row, and some balance is not "Balanced". An empty flavor column, or a balance column whose every cell is "Balanced" after the flavors pass, raises `KeyError` on `adverbs` |
| Pipeline.ValidateAsWritten | load_coffee_logs.py:91-123 | The validation as written passes exactly when the corrected validation passes, the flavor column has a row, and some balance is not "Balanced" |
| Pipeline.PreprocessAsWritten | load_coffee_logs.py:48-125 | Every table `preprocess_data` returns as written is the one the corrected pipeline returns |
| Pipeline.PreprocessAsWrittenAccepts | load_coffee_logs.py:48-125 | As written, `preprocess_data` returns a table exactly when the notes parse, the parsed batch satisfies the reference rule, the batch has a row, and some parsed balance is not "Balanced" |
| Pipeline.AllBalancedRejectedAsWritten | load_coffee_logs.py:98-101 | A batch whose every parsed balance is "Balanced" is rejected as written. The corrected pipeline accepts it exactly when its rows satisfy the reference rule |
| Pipeline.PreprocessBeanconquerorAsWritten | load_beanconqueror_logs.py:321-334 | As written: the Beanconqueror loader rejects every batch, because `check_nan_values` does not accept the keyword arguments it is called with |
| Pipeline.BeanconquerorRejectsValidBatches | load_beanconqueror_logs.py:321-334 | Every batch that the intended Beanconqueror pipeline accepts is rejected as written, with `TypeError` on the `columns` keyword |
| Pipeline.ToolMap | load_beanconqueror_logs.py:369-372 | The tool dictionary's keys are exactly the UUIDs of the tools. When a UUID appears twice, the name of its last entry wins |

## Left out

- The loaders' I/O is not part of this model: the Box download, the JSON backup merge (load_beanconqueror_logs.py before line 301), `to_csv`, logging, Slack, `update_table` and SQLite, the `__main__` blocks, and box_utils.py. The model starts from the table `preprocess_data` receives.
- The UUID-to-name substitution after the tool dictionary is left out. It is a regex replacement into a column the validation never reads.
- `check_nan_values` reads a `Timestamp` column only to format its message. The model assumes that column is present and keeps only the columns and rows reported.
- Message texts are left out. Errors carry the data the messages print: columns, rows and values.
- The message-formatting crashes are left out. These are `nan_idx.tolist()` on a list (log_utils.py:28) and `pd.concat` of a plain list (log_utils.py:110). Each raises `AttributeError` or `TypeError` where the code was about to raise `ValueError`, so only pass or fail is unchanged. As written, `check_nan_values` stops at the first column with a missing value and `validate_text` stops before building its message, so neither reports any rows. The model reports the columns, rows and values the messages were meant to print.
- Pipeline.Validate: `check_nan_values` hard-codes the coffee.guru column list (log_utils.py:18). The model takes the list from the schema, which is the list the Beanconqueror loader means to pass.
- Floating-point and dtype inference are left out. A column pandas would read as integers is modelled as `Int` cells, and every other value as text. `is_integer_dtype` on a column of `Int` cells is modelled as "every cell is an `Int`".
- Strings.IsSpace, Patterns.LowerAscii, IntParse.IsDigitGroup cover only ASCII and the whitespace set of Python's `str.isspace`. Unicode digits and non-ASCII case mappings are not modelled.
- Pipeline.StripUnit: `.str` accessors on a column with no text at all raise in pandas. The model treats such cells like any other non-text cell: they become missing.
- Pipeline.ParseStage: `pd.concat` with a column name in both tables would duplicate it. The model merges, and the parsed field wins.
- Pipeline.Unique does not state that the distinct grinders come in first-appearance order. Only which grinder fails first depends on that order. Whether the batch passes does not.
- Pipeline.Preprocess and Pipeline.Validate call the corrected `validate_text` and `validate_grind_settings`. The pipeline as written is `Pipeline.PreprocessAsWritten` and `Pipeline.ValidateAsWritten`.
- Pipeline.BalanceStage states the balance check with the corrected `validate_text`. As written the check also raises when every balance is "Balanced"; that case is `Pipeline.AllBalancedRejectedAsWritten`.
- Pipeline.ValidateAcceptsValidBatches states the validation with the corrected validators. The as-written validation is `Pipeline.ValidateAsWritten`, which additionally rejects the empty batch and the all-"Balanced" batch.
- Pipeline.PreprocessAccepts states `preprocess_data` with the corrected validators. The as-written statement is `Pipeline.PreprocessAsWrittenAccepts`.
- Validators.Coerce models `astype(int)` with Python's unbounded `int()`. pandas converts to int64, so a setting beyond the int64 range raises `OverflowError`. `except ValueError` (log_utils.py:149-152) does not catch that, so `validate_grind_settings` propagates it. The model treats such a setting as an integer, compared against the range like any other.
- Validators.DropDuplicates does not state which entry of a repeated value is kept. It states that every distinct value is kept once.
- Where the code and its documentation disagree, the model follows the code. The exceptions are the bugs under "## Findings": there the model has both the code as written and the corrected version. The disagreements it follows the code on are:
  - a one-word flavor or balance fails: with the blank-adjective report when another cell has two words, and with `KeyError` on the `adjectives` lookup when no cell has two words;
  - an empty batch fails when the note columns are renamed;
  - `$` in `^\s|\s$` also matches just before a final newline, so up to two trailing characters are removed.

## Findings

| source | as written | input that shows it | evidently intended | confidence | as-written member | corrected member |
|---|---|---|---|---|---|---|
| log_utils.py:76-90 | On an empty column `validate_text` queues a format message. It then looks up the missing `adverbs` column, so it raises `KeyError` | A balance column whose cells are all "Balanced", filtered down to no rows | An empty selection has nothing to reject, so it passes | not executed | Validators.ValidateTextAsWritten, Validators.EmptyTextColumn, Pipeline.PreprocessAsWrittenAccepts, Pipeline.AllBalancedRejectedAsWritten | Validators.ValidateText, Pipeline.PreprocessAccepts |
| log_utils.py:153 | After `astype(int)` fails, the report lists every cell `is_integer` rejects, including text such as "18" that converts | Settings "18", "22", "abc" | Only the cells that do not convert, here "abc" | not executed | Validators.ValidateGrindSettingsAsWritten, Validators.CoercibleTextReportedAsWritten, Pipeline.GrinderCheckAsWritten | Validators.ValidateGrindSettings, Validators.OnlyUnreadableReported |
| load_beanconqueror_logs.py:321-334 | `check_nan_values(logs, columns=..., timestamp_col=...)` against a definition with one parameter raises `TypeError` | Any Beanconqueror batch whose notes parse | Check the listed columns, with `updated_at` as the timestamp | not executed | Pipeline.PreprocessBeanconquerorAsWritten, Pipeline.BeanconquerorRejectsValidBatches | Pipeline.PreprocessAccepts |

=== FILE: frame.dfy ===
/** The slice of pandas the pipeline relies on: cells, columns, index labels,
    boolean row selection, and the errors the validation steps raise. */
module Frame {
  import opened Wrappers

  /** A non-missing cell: text, or a number the CSV/JSON reader already typed as an integer. */
  datatype Value = Str(s: string) | Int(i: int)

  /** A cell; `None` is pandas' NaN/None. */
  type Cell = Option<Value>

  /** A column with the default index `0..|col|-1`. */
  type Column = seq<Cell>

  /** A batch of logs: column name to column. */
  type Table = map<string, Column>

  /** One element of a Series that keeps its original index label (`row`). */
  datatype Entry = Entry(row: nat, cell: Cell)

  /** One `check_nan_values` finding: a column and the rows in it holding missing cells. */
  datatype NullReport = NullReport(column: string, rows: seq<nat>)

  /** What a failing step raises. */
  datatype Error =
    | KeyMissing(column: string)                  // `logs[col]` on an absent column
    | LengthMismatch(expected: nat, found: nat)   // `notes.columns = [...]` with the wrong count
    | MissingValues(reports: seq<NullReport>)     // check_nan_values
    | Unscored(rows: seq<nat>)                    // check_scores
    | InvalidText(values: seq<Entry>)             // validate_text: the offending cells
    | NonInteger(values: seq<Entry>)              // validate_grind_settings: coercion failed
    | OutOfRange(lo: int, hi: int, values: seq<Entry>)
    | NotAName(cell: Cell)                        // `.lower()` on a grinder cell that is not text
    | UnknownGrinder(name: string)                // no grind-setting range for this grinder
    | UnexpectedKeyword(name: string)             // a call passes a keyword the callee does not declare

  /** No element occurs twice. */
  predicate Distinct<T(==)>(xs: seq<T>) {
    forall a, b :: 0 <= a < b < |xs| ==> xs[a] != xs[b]
  }

  /** The largest of `ns`, 0 for none: the column count of `str.split(..., expand=True)`
      given each row's piece count. */
  function Widest(ns: seq<nat>): (w: nat)
    ensures forall k :: 0 <= k < |ns| ==> ns[k] <= w
    ensures |ns| > 0 ==> exists k :: 0 <= k < |ns| && ns[k] == w
    ensures |ns| == 0 ==> w == 0
  {
    if |ns| == 0 then 0
    else
      var rest := Widest(ns[1..]);
      assert forall k :: 1 <= k < |ns| ==> ns[k] == ns[1..][k - 1];
      if ns[0] >= rest then ns[0] else rest
  }

  /** Every column of `t` has exactly `n` rows, as in a DataFrame. */
  predicate HasRows(t: Table, n: nat) {
    forall c :: c in t ==> |t[c]| == n
  }

  predicate IsText(c: Cell) {
    c.Some? && c.value.Str?
  }

  /** Entries listed in strictly increasing row order. */
  predicate Ascending(es: seq<Entry>) {
    forall a, b :: 0 <= a < b < |es| ==> es[a].row < es[b].row
  }

  /** The whole column as a Series (`logs[col]`). */
  function Entries(col: Column): (r: seq<Entry>)
    ensures |r| == |col|
    ensures forall i :: 0 <= i < |col| ==> r[i] == Entry(i, col[i])
    ensures Ascending(r)
  {
    seq(|col|, i requires 0 <= i < |col| => Entry(i, col[i]))
  }

  /** `col.loc[mask]` from row `from` on: the selected rows, labels kept. */
  function SelectFrom(col: Column, mask: seq<bool>, from: nat): (r: seq<Entry>)
    requires |mask| == |col| && from <= |col|
    ensures forall e :: e in r <==> from <= e.row < |col| && mask[e.row] && e.cell == col[e.row]
    ensures Ascending(r)
    ensures forall k :: 0 <= k < |r| ==> from <= r[k].row
    decreases |col| - from
  {
    if from == |col| then []
    else
      var rest := SelectFrom(col, mask, from + 1);
      if mask[from] then [Entry(from, col[from])] + rest else rest
  }

  /** `col.loc[mask]`: exactly the rows whose mask is set, in row order, labels kept. */
  function Select(col: Column, mask: seq<bool>): (r: seq<Entry>)
    requires |mask| == |col|
    ensures forall e :: e in r <==> e.row < |col| && mask[e.row] && e.cell == col[e.row]
    ensures Ascending(r)
  {
    SelectFrom(col, mask, 0)
  }

  /** The entries of `es` satisfying `p`, in their original order. */
  function Filter(es: seq<Entry>, p: Entry -> bool): (r: seq<Entry>)
    ensures forall e :: e in r <==> e in es && p(e)
    ensures |r| <= |es|
  {
    if |es| == 0 then []
    else (if p(es[0]) then [es[0]] else []) + Filter(es[1..], p)
  }
}

=== FILE: intparse.dfy ===
/** Python's `int()` applied to a string, which is what `astype(int)` does to
    every string cell of an object column. */
module IntParse {
  import opened Wrappers
  import opened Strings

  /** Decimal digits with single underscores between them (`1_000`), as `int()` accepts. */
  predicate IsDigitGroup(s: string) {
    && |s| > 0 && IsDigit(s[0]) && IsDigit(s[|s| - 1])
    && (forall i :: 0 <= i < |s| ==> IsDigit(s[i]) || s[i] == '_')
    && (forall i :: 0 <= i < |s| - 1 ==> s[i] == '_' ==> s[i + 1] != '_')
  }

  function DigitValue(c: char): nat
    requires IsDigit(c)
  {
    c as int - '0' as int
  }

  /** The number a run of digits and underscores denotes; underscores are skipped. */
  function DigitsValue(s: string): nat
    requires forall i :: 0 <= i < |s| ==> IsDigit(s[i]) || s[i] == '_'
    decreases |s|
  {
    if |s| == 0 then 0
    else
      var init := DigitsValue(s[..|s| - 1]);
      if s[|s| - 1] == '_' then init else init * 10 + DigitValue(s[|s| - 1])
  }

  /** Python's `int(s)`: surrounding whitespace is ignored, an optional sign is
      followed by a digit group, and anything else is a `ValueError` (`None`). */
  function ParseInt(s: string): Option<int> {
    var t := TrimRight(TrimLeft(s));
    if |t| > 0 && (t[0] == '+' || t[0] == '-') then
      if IsDigitGroup(t[1..]) then
        var v: int := DigitsValue(t[1..]);
        Some(if t[0] == '-' then -v else v)
      else None
    else if IsDigitGroup(t) then Some(DigitsValue(t))
    else None
  }

  /** Python's `str(n)` for a natural number. */
  function ShowNat(n: nat): (s: string)
    ensures |s| > 0
    ensures forall i :: 0 <= i < |s| ==> IsDigit(s[i])
    decreases n
  {
    var d := [('0' as int + n % 10) as char];
    if n < 10 then d else ShowNat(n / 10) + d
  }

  /** Python's `str(i)` for an integer. */
  function ShowInt(i: int): string {
    if i < 0 then "-" + ShowNat(-i) else ShowNat(i)
  }

  lemma {:induction false} DigitsValueShowNat(n: nat)
    ensures DigitsValue(ShowNat(n)) == n
    decreases n
  {
    var s := ShowNat(n);
    if n >= 10 {
      DigitsValueShowNat(n / 10);
      assert s[..|s| - 1] == ShowNat(n / 10);
    }
  }

  /** `int(str(i)) == i`: every integer the pipeline could have written as text reads back. */
  lemma ParseShowInt(i: int)
    ensures ParseInt(ShowInt(i)) == Some(i)
  {
    var s := ShowInt(i);
    var m: nat := if i < 0 then -i else i;
    var digits := ShowNat(m);
    DigitsValueShowNat(m);
    assert TrimLeft(s) == s;
    assert TrimRight(s) == s;
    if i < 0 {
      assert s[1..] == digits;
    } else {
      assert s == digits;
    }
  }
}

=== FILE: notes.dfy ===
/** The field parser both pipelines run on the app's free-text notes column:
    delete the label tokens, split at every slash together with the whitespace
    around it, clean each piece, and spread the pieces over named columns. */
module Notes {
  import opened Wrappers
  import opened Strings
  import opened Patterns
  import opened Frame

  // ---------------------------------------------------------------------------
  // One notes string
  // ---------------------------------------------------------------------------

  /** A non-whitespace character is in a string exactly when it is among its visible characters. */
  lemma {:induction false} VisibleMember(s: string, c: char)
    requires !IsSpace(c)
    ensures c in s <==> c in Visible(s)
    decreases |s|
  {
    if |s| > 0 {
      VisibleMember(s[1..], c);
      assert s == [s[0]] + s[1..];
    }
  }

  /** The cleanup never introduces a non-whitespace character. */
  lemma CleanAddsNothing(x: string, c: char)
    requires !IsSpace(c) && c !in x
    ensures c !in Clean(x)
  {
    var y := StripEdge(x);
    assert forall i :: 0 <= i < |y| ==> y[i] == x[LeadCut(x) + i];
    VisibleMember(y, c);
    VisibleMember(Clean(x), c);
  }

  lemma CleanPiecesAddNothing(pieces: seq<string>, c: char)
    requires !IsSpace(c)
    requires forall k :: 0 <= k < |pieces| ==> c !in pieces[k]
    ensures forall k :: 0 <= k < |pieces| ==> c !in Clean(pieces[k])
  {
    forall k | 0 <= k < |pieces|
      ensures c !in Clean(pieces[k])
    {
      CleanAddsNothing(pieces[k], c);
    }
  }

  /** The parser on one notes string: the tokens that end up in the field columns.
      There is one token per slash plus one, no token holds a slash, and no token
      holds two adjacent whitespace characters. */
  function ParseNotes(s: string, labels: seq<string>): (r: seq<string>)
    requires NonEmptyPatterns(labels)
    ensures |r| == Count(RemoveAll(s, labels), '/') + 1
    ensures forall k :: 0 <= k < |r| ==> '/' !in r[k] && NoDoubleSpace(r[k])
  {
    var pieces := SplitSlash(RemoveAll(s, labels));
    CleanPiecesAddNothing(pieces, '/');
    seq(|pieces|, k requires 0 <= k < |pieces| => Clean(pieces[k]))
  }

  // ---------------------------------------------------------------------------
  // The notes format the parser is written for, and the round trip
  // ---------------------------------------------------------------------------

  /** Labels the parser can delete unambiguously: non-empty, free of whitespace
      and slashes, and none a proper prefix of another. */
  predicate LabelSet(labels: seq<string>) {
    && NonEmptyPatterns(labels)
    && (forall k, i :: 0 <= k < |labels| && 0 <= i < |labels[k]| ==> !IsSpace(labels[k][i]) && labels[k][i] != '/')
    && (forall k, l :: 0 <= k < |labels| && 0 <= l < |labels| && labels[k] <= labels[l] ==> labels[k] == labels[l])
  }

  /** A field value the format can carry: no slash, no label, no whitespace at
      either end and no two adjacent whitespace characters. */
  predicate PlainField(f: string, labels: seq<string>) {
    && '/' !in f
    && (f == "" || (!IsSpace(f[0]) && !IsSpace(f[|f| - 1])))
    && NoDoubleSpace(f)
    && NoOccurrence(f, labels)
  }

  predicate PlainFields(fields: seq<string>, labels: seq<string>) {
    forall k :: 0 <= k < |fields| ==> PlainField(fields[k], labels)
  }

  /** The notes text from field `k` on: `label field / label field / ...`. */
  function RenderFrom(labels: seq<string>, fields: seq<string>, k: nat): string
    requires |labels| == |fields| && k < |fields|
    decreases |fields| - k
  {
    labels[k] + " " + fields[k] + (if k + 1 == |fields| then "" else " / " + RenderFrom(labels, fields, k + 1))
  }

  /** The notes text a user types: `Bean: <bean> / Grinder: <grinder> / ...`. */
  function Render(labels: seq<string>, fields: seq<string>): string
    requires |labels| == |fields| > 0
  {
    RenderFrom(labels, fields, 0)
  }

  /** The rendered text after label deletion. */
  function BareFrom(fields: seq<string>, k: nat): string
    requires k < |fields|
    decreases |fields| - k
  {
    " " + fields[k] + (if k + 1 == |fields| then "" else " / " + BareFrom(fields, k + 1))
  }

  /** `a <= b` compares a prefix: it fails as soon as one position differs. */
  lemma PrefixDiffers(a: string, b: string, m: nat)
    requires m < |a| && m < |b| && a[m] != b[m]
    ensures !(a <= b)
  {
  }

  /** A label can only be found at the front of a rendered field as the label itself. */
  lemma LabelAtFront(labels: seq<string>, k: nat, j: nat, rest: string)
    requires LabelSet(labels) && k < |labels| && j < |labels|
    ensures labels[j] <= labels[k] + " " + rest ==> labels[j] == labels[k]
  {
    var s := labels[k] + " " + rest;
    var n := |labels[k]|;
    if |labels[j]| > n {
      assert s[n] == ' ';
      PrefixDiffers(labels[j], s, n);
    } else if labels[j] <= s {
      assert labels[j] == s[..|labels[j]|] == labels[k][..|labels[j]|];
      assert labels[j] <= labels[k];
    }
  }

  /** No label starts at a whitespace character or a slash. */
  lemma NoLabelAtSeparator(s: string, i: nat, labels: seq<string>)
    requires LabelSet(labels) && i < |s| && (IsSpace(s[i]) || s[i] == '/')
    ensures NoMatchAt(s, i, labels)
  {
    forall j | 0 <= j < |labels|
      ensures !(labels[j] <= s[i..])
    {
      PrefixDiffers(labels[j], s[i..], 0);
    }
  }

  /** No label starts inside a plain field followed by whitespace. */
  lemma NoLabelInField(w: string, f: string, b: string, i: nat, labels: seq<string>)
    requires LabelSet(labels) && PlainField(f, labels)
    requires |b| > 0 && IsSpace(b[0])
    requires |w| <= i < |w| + |f|
    ensures NoMatchAt(w + f + b, i, labels)
  {
    var s := w + f + b;
    var p := i - |w|;
    forall j | 0 <= j < |labels|
      ensures !(labels[j] <= s[i..])
    {
      var lab := labels[j];
      var m := |f| - p;
      if m < |lab| {
        assert s[i..][m] == b[0];
        PrefixDiffers(lab, s[i..], m);
      } else {
        assert NoMatchAt(f, p, labels);
        assert s[i..][..|lab|] == f[p..][..|lab|];
      }
    }
  }

  /** The label at the front of a rendered field is deleted. */
  lemma FrontLabelDeleted(labels: seq<string>, k: nat, f: string, tail: string)
    requires LabelSet(labels) && k < |labels|
    ensures RemoveAll(labels[k] + " " + f + tail, labels) == RemoveAll(" " + f + tail, labels)
  {
    var rest := f + tail;
    assert labels[k] + " " + f + tail == labels[k] + (" " + rest);
    assert " " + f + tail == " " + rest;
    forall j | 0 <= j < |labels| && labels[j] <= labels[k] + (" " + rest)
      ensures labels[j] == labels[k]
    {
      assert labels[k] + (" " + rest) == labels[k] + " " + rest;
      LabelAtFront(labels, k, j, rest);
    }
    assert labels[k] in labels;
    RemoveAllLeading(labels[k], " " + rest, labels);
  }

  /** A field followed by a separator is kept whole. */
  lemma FieldKept(labels: seq<string>, f: string, b: string)
    requires LabelSet(labels) && PlainField(f, labels)
    ensures RemoveAll(" " + f + (" / " + b), labels) == " " + f + (" / " + RemoveAll(b, labels))
  {
    var a := " " + f + " / ";
    forall i | 0 <= i < |a|
      ensures NoMatchAt(a + b, i, labels)
    {
      if i == 0 || i > |f| {
        NoLabelAtSeparator(a + b, i, labels);
      } else {
        ConcatAssoc(" " + f, " / ", b);
        NoLabelInField(" ", f, " / " + b, i, labels);
      }
    }
    RemoveAllAppend(a, b, labels);
    ConcatAssoc(" " + f, " / ", b);
    ConcatAssoc(" " + f, " / ", RemoveAll(b, labels));
  }

  lemma ConcatAssoc(x: string, y: string, z: string)
    ensures x + y + z == x + (y + z)
  {
  }

  /** The last field is kept whole. */
  lemma LastFieldKept(labels: seq<string>, f: string)
    requires LabelSet(labels) && PlainField(f, labels)
    ensures RemoveAll(" " + f + "", labels) == " " + f + ""
  {
    var s := " " + f;
    assert s + "" == s;
    forall i | 0 <= i < |s|
      ensures NoMatchAt(s, i, labels)
    {
      if i == 0 {
        NoLabelAtSeparator(s, i, labels);
      } else {
        assert NoMatchAt(f, i - 1, labels);
        assert s[i..] == f[i - 1..];
      }
    }
    RemoveAllFree(s, labels);
  }

  /** Label deletion on the last rendered field. */
  lemma RemoveLabelsLast(labels: seq<string>, fields: seq<string>, k: nat)
    requires LabelSet(labels) && |labels| == |fields| && k + 1 == |fields|
    requires PlainField(fields[k], labels)
    ensures RemoveAll(RenderFrom(labels, fields, k), labels) == BareFrom(fields, k)
  {
    FrontLabelDeleted(labels, k, fields[k], "");
    LastFieldKept(labels, fields[k]);
  }

  /** Label deletion on one rendered field followed by more, given the rest. */
  lemma RemoveLabelsStep(labels: seq<string>, fields: seq<string>, k: nat)
    requires LabelSet(labels) && |labels| == |fields| && k + 1 < |fields|
    requires PlainField(fields[k], labels)
    requires RemoveAll(RenderFrom(labels, fields, k + 1), labels) == BareFrom(fields, k + 1)
    ensures RemoveAll(RenderFrom(labels, fields, k), labels) == BareFrom(fields, k)
  {
    var next := RenderFrom(labels, fields, k + 1);
    FrontLabelDeleted(labels, k, fields[k], " / " + next);
    FieldKept(labels, fields[k], next);
  }

  /** Deleting the labels from the rendered text leaves the fields and the separators. */
  lemma {:induction false} RemoveLabels(labels: seq<string>, fields: seq<string>, k: nat)
    requires LabelSet(labels) && |labels| == |fields| && k < |fields|
    requires PlainFields(fields, labels)
    ensures RemoveAll(RenderFrom(labels, fields, k), labels) == BareFrom(fields, k)
    decreases |fields| - k
  {
    assert PlainField(fields[k], labels);
    if k + 1 == |fields| {
      RemoveLabelsLast(labels, fields, k);
    } else {
      RemoveLabels(labels, fields, k + 1);
      RemoveLabelsStep(labels, fields, k);
    }
  }

  /** The `k`-th piece of the bare text cut at its slashes. */
  function Piece(fields: seq<string>, k: nat): string
    requires k < |fields|
  {
    (if k > 0 then "  " else " ") + fields[k] + (if k + 1 < |fields| then " " else "")
  }

  function Pieces(fields: seq<string>): (r: seq<string>)
    ensures |r| == |fields|
    ensures forall k :: 0 <= k < |fields| ==> r[k] == Piece(fields, k)
  {
    seq(|fields|, k requires 0 <= k < |fields| => Piece(fields, k))
  }

  lemma JoinFront(x: string, xs: seq<string>, sep: char)
    requires |xs| > 0
    ensures x + Join(xs, sep) == Join([x + xs[0]] + xs[1..], sep)
  {
    var ys := [x + xs[0]] + xs[1..];
    assert ys[1..] == xs[1..];
  }

  lemma JoinStep(P: seq<string>, k: nat, sep: char)
    requires k + 1 < |P|
    ensures Join(P[k..], sep) == P[k] + [sep] + Join(P[k + 1..], sep)
  {
    assert P[k..][0] == P[k];
    assert P[k..][1..] == P[k + 1..];
  }

  lemma BareStep(lead: string, f: string, rest: string, piece: string)
    requires piece == (lead + " ") + f + " "
    ensures lead + (" " + f + (" / " + rest)) == piece + ['/'] + (" " + rest)
  {
  }

  lemma BareLast(lead: string, f: string, piece: string)
    requires piece == (lead + " ") + f + ""
    ensures lead + (" " + f + "") == piece
  {
  }

  /** The bare text from field `k` on is the pieces from `k` on joined by slashes,
      the first one without the space that followed the previous slash. */
  lemma {:induction false} BareIsJoin(fields: seq<string>, k: nat)
    requires k < |fields|
    ensures (k > 0 ==> " " + BareFrom(fields, k) == Join(Pieces(fields)[k..], '/'))
    ensures (k == 0 ==> BareFrom(fields, k) == Join(Pieces(fields)[k..], '/'))
    decreases |fields| - k
  {
    var P := Pieces(fields);
    var f := fields[k];
    var lead := if k > 0 then " " else "";
    assert (if k > 0 then "  " else " ") == lead + " ";
    if k + 1 == |fields| {
      assert P[k] == (lead + " ") + f + "";
      assert P[k..] == [P[k]];
      assert BareFrom(fields, k) == " " + f + "";
      BareLast(lead, f, P[k]);
    } else {
      var rest := BareFrom(fields, k + 1);
      assert P[k] == (lead + " ") + f + " ";
      BareIsJoin(fields, k + 1);
      JoinStep(P, k, '/');
      assert BareFrom(fields, k) == " " + f + (" / " + rest);
      BareStep(lead, f, rest, P[k]);
    }
    assert lead + BareFrom(fields, k) == Join(P[k..], '/');
    if k == 0 {
      assert lead + BareFrom(fields, k) == BareFrom(fields, k);
    }
  }

  lemma {:induction false} TrimLeftSpaces(w: string, x: string)
    requires forall i :: 0 <= i < |w| ==> IsSpace(w[i])
    requires x == "" || !IsSpace(x[0])
    ensures TrimLeft(w + x) == x
    decreases |w|
  {
    if |w| > 0 {
      assert (w + x)[1..] == w[1..] + x;
      TrimLeftSpaces(w[1..], x);
    } else {
      assert w + x == x;
    }
  }

  lemma {:induction false} TrimRightSpaces(x: string, w: string)
    requires forall i :: 0 <= i < |w| ==> IsSpace(w[i])
    requires x == "" || !IsSpace(x[|x| - 1])
    ensures TrimRight(x + w) == x
    decreases |w|
  {
    if |w| > 0 {
      assert (x + w)[..|x + w| - 1] == x + w[..|w| - 1];
      TrimRightSpaces(x, w[..|w| - 1]);
    } else {
      assert x + w == x;
    }
  }

  /** A field with no space at either end and no double space. */
  predicate Tight(f: string) {
    && (f == "" || (!IsSpace(f[0]) && !IsSpace(f[|f| - 1])))
    && NoDoubleSpace(f)
  }

  lemma CleanTight(f: string)
    requires Tight(f)
    ensures Clean(f) == f
  {
    CollapseSpec(StripEdge(f));
  }

  /** The one space a slash leaves before a piece is stripped by the edge rule. */
  lemma CleanAfterSpace(f: string)
    requires Tight(f)
    ensures Clean(" " + f) == f
  {
    var s := " " + f;
    assert IsSpace(s[0]);
    assert LeadCut(s) == 1;
    if |f| > 0 {
      assert s[|s| - 1] == f[|f| - 1];
    }
    assert TrailCut(s) == 0;
    assert StripEdge(s) == s[1..] == f;
    CollapseSpec(f);
  }

  lemma CleanInnerPiece(f: string)
    requires Tight(f)
    ensures Clean(TrimPiece("  " + f + " ", true, true)) == f
  {
    if f == "" {
      TrimLeftSpaces("   ", "");
      assert "  " + f + " " == "   " + "";
    } else {
      TrimLeftSpaces("  ", f + " ");
      assert "  " + f + " " == "  " + (f + " ");
      TrimRightSpaces(f, " ");
    }
    CleanTight(f);
  }

  lemma CleanLastPiece(f: string)
    requires Tight(f)
    ensures Clean(TrimPiece("  " + f + "", true, false)) == f
  {
    TrimLeftSpaces("  ", f);
    assert "  " + f + "" == "  " + f;
    CleanTight(f);
  }

  lemma CleanFirstPiece(f: string)
    requires Tight(f)
    ensures Clean(TrimPiece(" " + f + " ", false, true)) == f
  {
    if f == "" {
      TrimRightSpaces("", "  ");
      assert " " + f + " " == "" + "  ";
    } else {
      TrimRightSpaces(" " + f, " ");
      assert " " + f + " " == (" " + f) + " ";
      CleanAfterSpace(f);
    }
  }

  lemma CleanOnlyPiece(f: string)
    requires Tight(f)
    ensures Clean(TrimPiece(" " + f + "", false, false)) == f
  {
    assert " " + f + "" == " " + f;
    CleanAfterSpace(f);
  }

  /** Each piece, trimmed where it touched a slash and cleaned, is its field again. */
  lemma PieceCleansToField(fields: seq<string>, labels: seq<string>, k: nat)
    requires k < |fields| && PlainField(fields[k], labels)
    ensures Clean(TrimPiece(Piece(fields, k), k > 0, k < |fields| - 1)) == fields[k]
  {
    var f := fields[k];
    assert Tight(f);
    if k > 0 && k < |fields| - 1 {
      CleanInnerPiece(f);
    } else if k > 0 {
      CleanLastPiece(f);
    } else if k < |fields| - 1 {
      CleanFirstPiece(f);
    } else {
      CleanOnlyPiece(f);
    }
  }

  /** The round trip: the parser recovers every field of the notes format. */
  lemma ParseRender(labels: seq<string>, fields: seq<string>)
    requires LabelSet(labels) && |labels| == |fields| > 0
    requires PlainFields(fields, labels)
    ensures ParseNotes(Render(labels, fields), labels) == fields
  {
    RenderedPieces(labels, fields);
    var r := ParseNotes(Render(labels, fields), labels);
    forall k | 0 <= k < |fields|
      ensures r[k] == fields[k]
    {
      PieceCleansToField(fields, labels, k);
    }
  }

  /** The bare text is split exactly at the separators between the fields. */
  lemma BareSplit(fields: seq<string>)
    requires |fields| > 0 && forall k :: 0 <= k < |fields| ==> '/' !in fields[k]
    ensures Split(BareFrom(fields, 0), '/') == Pieces(fields)
  {
    var P := Pieces(fields);
    BareIsJoin(fields, 0);
    assert P[0..] == P;
    forall k | 0 <= k < |P|
      ensures '/' !in P[k]
    {
      assert '/' !in fields[k];
    }
    SplitJoin(P, '/');
  }

  /** With the labels deleted, the slash split yields each field with the
      whitespace the rendering put around it, trimmed where it touched a slash. */
  lemma RenderedPieces(labels: seq<string>, fields: seq<string>)
    requires LabelSet(labels) && |labels| == |fields| > 0
    requires PlainFields(fields, labels)
    ensures var pieces := SplitSlash(RemoveAll(Render(labels, fields), labels));
      && |pieces| == |fields|
      && forall k :: 0 <= k < |fields| ==> pieces[k] == TrimPiece(Piece(fields, k), k > 0, k < |fields| - 1)
  {
    RemoveLabels(labels, fields, 0);
    BareSplit(fields);
    SplitSlashIsTrimmedSplit(BareFrom(fields, 0));
  }

  // ---------------------------------------------------------------------------
  // The whole notes column: `str.split(..., expand=True)` and `notes.columns = names`
  // ---------------------------------------------------------------------------

  /** The tokens of one notes cell; a missing or non-text cell stays missing. */
  function ParseCell(c: Cell, labels: seq<string>): Option<seq<string>>
    requires NonEmptyPatterns(labels)
  {
    if IsText(c) then Some(ParseNotes(c.value.s, labels)) else None
  }

  /** How many expanded columns a row fills: a missing row counts as one missing value. */
  function RowWidth(row: Option<seq<string>>): nat {
    match row
    case None => 1
    case Some(ps) => |ps|
  }

  /** Column `j` of an expanded row: its `j`-th token, or a missing cell as padding. */
  function CellAt(row: Option<seq<string>>, j: nat): Cell {
    match row
    case None => None
    case Some(ps) => if j < |ps| then Some(Str(ps[j])) else None
  }

  /** The piece count of every row of the notes column. */
  function RowWidths(note: Column, labels: seq<string>): (r: seq<nat>)
    requires NonEmptyPatterns(labels)
    ensures |r| == |note|
    ensures forall i :: 0 <= i < |note| ==> r[i] == RowWidth(ParseCell(note[i], labels))
  {
    seq(|note|, i requires 0 <= i < |note| => RowWidth(ParseCell(note[i], labels)))
  }

  /** Number of columns `str.split(..., expand=True)` produces for the notes column. */
  function NoteWidth(note: Column, labels: seq<string>): (w: nat)
    requires NonEmptyPatterns(labels)
    ensures forall i :: 0 <= i < |note| ==> RowWidth(ParseCell(note[i], labels)) <= w
    ensures |note| > 0 ==> exists i :: 0 <= i < |note| && RowWidth(ParseCell(note[i], labels)) == w
    ensures |note| == 0 ==> w == 0
  {
    var widths := RowWidths(note, labels);
    var w := Widest(widths);
    assert |note| > 0 ==> exists i :: 0 <= i < |note| && RowWidth(ParseCell(note[i], labels)) == w by {
      if |note| > 0 {
        var k :| 0 <= k < |widths| && widths[k] == w;
        assert RowWidth(ParseCell(note[k], labels)) == w;
      }
    }
    w
  }

  /** Expanded column `j`. */
  function FieldColumn(note: Column, labels: seq<string>, j: nat): (r: Column)
    requires NonEmptyPatterns(labels)
    ensures |r| == |note|
    ensures forall i :: 0 <= i < |note| ==> r[i] == CellAt(ParseCell(note[i], labels), j)
  {
    seq(|note|, i requires 0 <= i < |note| => CellAt(ParseCell(note[i], labels), j))
  }

  /** The expanded columns `from..|names|-1`, each under its name. */
  function FieldTable(note: Column, labels: seq<string>, names: seq<string>, from: nat): (t: Table)
    requires NonEmptyPatterns(labels) && Distinct(names) && from <= |names|
    ensures forall c :: c in t ==> c in names
    ensures forall j :: from <= j < |names| ==> names[j] in t && t[names[j]] == FieldColumn(note, labels, j)
    ensures HasRows(t, |note|)
    decreases |names| - from
  {
    if from == |names| then map[]
    else
      var rest := FieldTable(note, labels, names, from + 1);
      var col := FieldColumn(note, labels, from);
      var t := rest[names[from] := col];
      assert forall j :: from < j < |names| ==> t[names[j]] == rest[names[j]] by {
        forall j | from < j < |names|
          ensures t[names[j]] == rest[names[j]]
        {
          assert names[j] != names[from];
        }
      }
      t
  }

  /** Parse the notes column and name the resulting columns `names`: this fails
      unless the widest row has exactly one token per name. */
  function ExpandNotes(note: Column, labels: seq<string>, names: seq<string>): (r: Result<Table, Error>)
    requires NonEmptyPatterns(labels) && Distinct(names)
    ensures r.Ok? <==> NoteWidth(note, labels) == |names|
    ensures r.Err? ==> r.error == LengthMismatch(|names|, NoteWidth(note, labels))
    ensures r.Ok? ==> forall c :: c in r.value <==> c in names
    ensures r.Ok? ==> HasRows(r.value, |note|)
    ensures r.Ok? ==> forall j :: 0 <= j < |names| ==>
      r.value[names[j]] == FieldColumn(note, labels, j)
  {
    var w := NoteWidth(note, labels);
    if w != |names| then Err(LengthMismatch(|names|, w))
    else
      var t := FieldTable(note, labels, names, 0);
      assert forall c :: c in names ==> c in t by {
        forall c | c in names
          ensures c in t
        {
          var j :| 0 <= j < |names| && names[j] == c;
        }
      }
      Ok(t)
  }

  /** One row with more segments than there are names makes the whole batch fail. */
  lemma TooManySegments(note: Column, labels: seq<string>, names: seq<string>, i: nat)
    requires NonEmptyPatterns(labels) && Distinct(names)
    requires i < |note| && IsText(note[i])
    requires Count(RemoveAll(note[i].value.s, labels), '/') >= |names|
    ensures ExpandNotes(note, labels, names).Err?
  {
    assert RowWidth(ParseCell(note[i], labels)) > |names|;
  }

  /** An empty batch has no columns to name, so naming the fields fails. */
  lemma EmptyBatchFails(labels: seq<string>, names: seq<string>)
    requires NonEmptyPatterns(labels) && Distinct(names) && |names| > 0
    ensures ExpandNotes([], labels, names) == Err(LengthMismatch(|names|, 0))
  {
  }

  /** When the widths agree, a row with fewer tokens is padded with missing cells. */
  lemma ShortRowsPadded(note: Column, labels: seq<string>, names: seq<string>, i: nat, j: nat)
    requires NonEmptyPatterns(labels) && Distinct(names)
    requires ExpandNotes(note, labels, names).Ok?
    requires i < |note| && j < |names| && j >= RowWidth(ParseCell(note[i], labels))
    ensures ExpandNotes(note, labels, names).value[names[j]][i].None?
  {
  }

  /** Row `i` of `note` is the rendering of the field list `rows[i]`. */
  predicate RenderedColumn(note: Column, labels: seq<string>, rows: seq<seq<string>>) {
    && |note| == |rows|
    && forall i :: 0 <= i < |rows| ==>
         && |rows[i]| == |labels| > 0 && PlainFields(rows[i], labels)
         && note[i] == Some(Str(Render(labels, rows[i])))
  }

  /** Expanded column `j` of a rendered column holds field `j` of every row. */
  lemma RenderedFieldColumn(note: Column, labels: seq<string>, rows: seq<seq<string>>, j: nat)
    requires LabelSet(labels) && RenderedColumn(note, labels, rows) && j < |labels|
    ensures forall i :: 0 <= i < |rows| ==> FieldColumn(note, labels, j)[i] == Some(Str(rows[i][j]))
  {
    forall i | 0 <= i < |rows|
      ensures ParseCell(note[i], labels) == Some(rows[i])
    {
      ParseRender(labels, rows[i]);
    }
  }

  /** Every row rendered from the notes format lands, field by field, in the named columns. */
  lemma RenderedRowsExpand(note: Column, labels: seq<string>, names: seq<string>, rows: seq<seq<string>>)
    requires LabelSet(labels) && Distinct(names) && |labels| == |names| && |rows| > 0
    requires RenderedColumn(note, labels, rows)
    ensures ExpandNotes(note, labels, names).Ok?
    ensures forall i, j :: 0 <= i < |note| && 0 <= j < |names| ==>
      ExpandNotes(note, labels, names).value[names[j]][i] == Some(Str(rows[i][j]))
  {
    forall i | 0 <= i < |note|
      ensures ParseCell(note[i], labels) == Some(rows[i])
    {
      ParseRender(labels, rows[i]);
    }
    assert RowWidth(ParseCell(note[0], labels)) == |names|;
  }
}

=== FILE: patterns.dfy ===
/** The regular expressions of the notes parser and of the grinder-name
    normalisation, each written out as an explicit scan:
      - `re.split(r'\s*\/\s*', s)`     SplitSlash
      - `re.sub(r'^\s|\s$', '', s)`    StripEdge
      - `re.sub(r'\s{2,}', ' ', s)`    Collapse
      - `re.sub(r'\s+|-', '_', s.lower())`  NormalizeName */
module Patterns {
  import opened Strings

  // ---------------------------------------------------------------------------
  // Splitting on a slash and the whitespace around it
  // ---------------------------------------------------------------------------

  lemma {:induction false} CountTrimLeft(x: string)
    ensures Count(TrimLeft(x), '/') == Count(x, '/')
    decreases |x|
  {
    if |x| > 0 && IsSpace(x[0]) {
      assert x[0] != '/';
      CountTrimLeft(x[1..]);
    }
  }

  /** Python's `re.split(r'\s*\/\s*', s)`: a match is a slash together with the
      whole whitespace run on each side of it, so there is one piece more than
      there are slashes and no piece holds a slash; `SplitSlashIsTrimmedSplit`
      says which whitespace the pieces lose. */
  function SplitSlash(s: string): (r: seq<string>)
    ensures |r| == Count(s, '/') + 1
    ensures forall k :: 0 <= k < |r| ==> '/' !in r[k]
    decreases |s|
  {
    if '/' !in s then
      CountAbsent(s, '/');
      [s]
    else
      var j := IndexOf(s, '/');
      var head := TrimRight(s[..j]);
      var rest := TrimLeft(s[j + 1..]);
      CountAtFirst(s, '/');
      CountTrimLeft(s[j + 1..]);
      TrimRightSpec(s[..j]);
      PrefixLacks(s[..j], |head|, '/');
      [head] + SplitSlash(rest)
  }

  /** Trims the whitespace on the sides of a piece that touched a separator. */
  function TrimPiece(x: string, left: bool, right: bool): string {
    var y := if left then TrimLeft(x) else x;
    if right then TrimRight(y) else y
  }

  lemma {:induction false} TrimLeftPrefix(x: string, j: nat)
    requires j <= |x|
    requires j < |x| ==> !IsSpace(x[j])
    ensures |TrimLeft(x)| >= |x| - j
    ensures TrimLeft(x[..j]) + x[j..] == TrimLeft(x)
    decreases |x|
  {
    if |x| > 0 && IsSpace(x[0]) {
      assert j > 0;
      assert x[..j][1..] == x[1..][..j - 1];
      assert x[1..][j - 1..] == x[j..];
      TrimLeftPrefix(x[1..], j - 1);
    } else {
      assert x[..j] + x[j..] == x;
      if j > 0 {
        assert x[..j][0] == x[0];
      }
    }
  }

  lemma IndexOfIs(s: string, c: char, j: nat)
    requires j < |s| && s[j] == c && c !in s[..j]
    ensures IndexOf(s, c) == j
  {
  }

  /** A slash with none before it ends the first piece. */
  lemma SplitAt(s: string, j: nat)
    requires j < |s| && s[j] == '/' && '/' !in s[..j]
    ensures Split(s, '/') == [s[..j]] + Split(s[j + 1..], '/')
  {
    IndexOfIs(s, '/', j);
  }

  lemma TrimLeftKeepsAbsent(x: string, c: char)
    requires c !in x
    ensures c !in TrimLeft(x)
  {
    TrimLeftSpec(x);
    assert TrimLeft(x) == x[|x| - |TrimLeft(x)|..];
  }

  /** Trimming the front before the first slash trims only the first piece. */
  lemma SplitTrimLeftAt(t: string, j: nat)
    requires j < |t| && t[j] == '/' && '/' !in t[..j]
    ensures Split(TrimLeft(t), '/') == [TrimLeft(t[..j])] + Split(t[j + 1..], '/')
  {
    TrimLeftPrefix(t, j);
    var v := TrimLeft(t[..j]);
    TrimLeftKeepsAbsent(t[..j], '/');
    var u := v + t[j..];
    assert u[..|v|] == v;
    assert u[|v| + 1..] == t[j + 1..];
    SplitAt(u, |v|);
  }

  /** Trimming the front of a string only changes the first of its slash-separated pieces. */
  lemma SplitTrimLeft(t: string)
    ensures Split(TrimLeft(t), '/') == [TrimLeft(Split(t, '/')[0])] + Split(t, '/')[1..]
  {
    if '/' in t {
      var j := IndexOf(t, '/');
      SplitAt(t, j);
      SplitTrimLeftAt(t, j);
    } else {
      TrimLeftKeepsAbsent(t, '/');
    }
  }

  /** The pieces after the first slash, trimmed as a split of their own, line up
      with the pieces of the whole string. */
  lemma TrimmedPiecesShift(p0: string, tail: seq<string>, rest: seq<string>)
    requires |tail| > 0 && |rest| == |tail|
    requires forall k :: 0 <= k < |tail| ==>
      rest[k] == TrimPiece(([TrimLeft(tail[0])] + tail[1..])[k], k > 0, k < |tail| - 1)
    ensures var P := [p0] + tail;
      var r := [TrimRight(p0)] + rest;
      forall k :: 0 <= k < |P| ==> r[k] == TrimPiece(P[k], k > 0, k < |P| - 1)
  {
    var P := [p0] + tail;
    var r := [TrimRight(p0)] + rest;
    forall k | 0 <= k < |P|
      ensures r[k] == TrimPiece(P[k], k > 0, k < |P| - 1)
    {
      if k > 1 {
        assert r[k] == rest[k - 1];
        assert ([TrimLeft(tail[0])] + tail[1..])[k - 1] == P[k];
      } else if k == 1 {
        assert r[k] == rest[0];
      }
    }
  }

  /** Reference reading of the split: cut at every slash, then trim the
      whitespace that touched a slash. */
  lemma {:induction false} SplitSlashIsTrimmedSplit(s: string)
    ensures |SplitSlash(s)| == |Split(s, '/')|
    ensures forall k :: 0 <= k < |Split(s, '/')| ==>
      SplitSlash(s)[k] == TrimPiece(Split(s, '/')[k], k > 0, k < |Split(s, '/')| - 1)
    decreases |s|
  {
    if '/' in s {
      var j := IndexOf(s, '/');
      var t := s[j + 1..];
      var rest := TrimLeft(t);
      var P' := Split(t, '/');
      assert Split(s, '/') == [s[..j]] + P';
      SplitTrimLeft(t);
      SplitSlashIsTrimmedSplit(rest);
      assert SplitSlash(s) == [TrimRight(s[..j])] + SplitSlash(rest);
      TrimmedPiecesShift(s[..j], P', SplitSlash(rest));
    }
  }

  // ---------------------------------------------------------------------------
  // `re.sub(r'^\s|\s$', '', s)`
  // ---------------------------------------------------------------------------

  /** Python's `$` without MULTILINE: the end of the string, or just before a
      newline that ends it. */
  predicate EndAnchor(s: string, j: nat) {
    j == |s| || (j + 1 == |s| && s[j] == '\n')
  }

  /** The positions the substitution deletes: a whitespace character at the start,
      or one followed by the end anchor. */
  predicate EdgeMatchAt(s: string, i: nat)
    requires i < |s|
  {
    IsSpace(s[i]) && (i == 0 || EndAnchor(s, i + 1))
  }

  /** The characters of `s[i..]` at positions the substitution does not delete. */
  function KeepUnmatched(s: string, i: nat): string
    requires i <= |s|
    decreases |s| - i
  {
    if i == |s| then "" else (if EdgeMatchAt(s, i) then "" else [s[i]]) + KeepUnmatched(s, i + 1)
  }

  /** Number of characters the substitution deletes at the front. */
  function LeadCut(s: string): nat {
    if |s| > 0 && IsSpace(s[0]) then 1 else 0
  }

  /** Number of characters the substitution deletes at the back: the last one when
      it is whitespace, and the one before it as well when the last is a newline. */
  function TrailCut(s: string): nat {
    var lead := LeadCut(s);
    if |s| > lead && IsSpace(s[|s| - 1]) then
      (if s[|s| - 1] == '\n' && |s| - 2 >= lead && IsSpace(s[|s| - 2]) then 2 else 1)
    else 0
  }

  /** `re.sub(r'^\s|\s$', '', s)`. */
  function StripEdge(s: string): (r: string)
    ensures |s| <= |r| + 3
    ensures (|s| == 0 || (!IsSpace(s[0]) && !IsSpace(s[|s| - 1]))) ==> r == s
  {
    s[LeadCut(s) .. |s| - TrailCut(s)]
  }

  lemma {:induction false} KeepUnmatchedRange(s: string, a: nat, b: nat)
    requires a <= b <= |s|
    requires forall i :: a <= i < b ==> !EdgeMatchAt(s, i)
    ensures KeepUnmatched(s, a) == s[a..b] + KeepUnmatched(s, b)
    decreases b - a
  {
    if a < b {
      KeepUnmatchedRange(s, a + 1, b);
      calc {
        KeepUnmatched(s, a);
        { assert !EdgeMatchAt(s, a); }
        [s[a]] + KeepUnmatched(s, a + 1);
        [s[a]] + (s[a + 1..b] + KeepUnmatched(s, b));
        { assert s[a..b] == [s[a]] + s[a + 1..b]; }
        s[a..b] + KeepUnmatched(s, b);
      }
    }
  }

  /** The slice-based definition deletes exactly the positions the regex matches. */
  lemma StripEdgeIsRegexSub(s: string)
    ensures StripEdge(s) == KeepUnmatched(s, 0)
  {
    var n := |s|;
    if n > 0 {
      var lead := LeadCut(s);
      var stop := n - TrailCut(s);
      InnerUnmatched(s);
      TrailMatched(s);
      KeepUnmatchedRange(s, lead, stop);
      KeepUnmatchedNone(s, stop);
      if lead == 1 {
        assert EdgeMatchAt(s, 0);
      }
    }
  }

  /** Between the cuts the substitution deletes nothing. */
  lemma InnerUnmatched(s: string)
    ensures forall i :: LeadCut(s) <= i < |s| - TrailCut(s) ==> !EdgeMatchAt(s, i)
  {
  }

  /** Every position the back cut removes is one the substitution deletes. */
  lemma TrailMatched(s: string)
    ensures forall i :: |s| - TrailCut(s) <= i < |s| ==> EdgeMatchAt(s, i)
  {
  }

  lemma {:induction false} KeepUnmatchedNone(s: string, a: nat)
    requires a <= |s|
    requires forall i :: a <= i < |s| ==> EdgeMatchAt(s, i)
    ensures KeepUnmatched(s, a) == ""
    decreases |s| - a
  {
    if a < |s| {
      KeepUnmatchedNone(s, a + 1);
    }
  }

  // ---------------------------------------------------------------------------
  // `re.sub(r'\s{2,}', ' ', s)`
  // ---------------------------------------------------------------------------

  /** Length of the whitespace run at the front of `s`. */
  function SpaceRun(s: string): (k: nat)
    ensures k <= |s|
    ensures forall i :: 0 <= i < k ==> IsSpace(s[i])
    ensures k == |s| || !IsSpace(s[k])
    decreases |s|
  {
    if |s| > 0 && IsSpace(s[0]) then 1 + SpaceRun(s[1..]) else 0
  }

  /** A run of `k` whitespace characters followed by something else is the
      leading run. */
  lemma SpaceRunIs(s: string, k: nat)
    requires k <= |s| && (k == |s| || !IsSpace(s[k]))
    requires forall i :: 0 <= i < k ==> IsSpace(s[i])
    ensures SpaceRun(s) == k
  {
  }

  /** No whitespace run straddles the seam between `a` and `b`. */
  predicate NoRunAcross(a: string, b: string) {
    a == "" || b == "" || !IsSpace(a[|a| - 1]) || !IsSpace(b[0])
  }

  /** The leading whitespace run of `a + b` is that of `a` when no run crosses the seam. */
  lemma SpaceRunAppend(a: string, b: string)
    requires |a| > 0 && NoRunAcross(a, b)
    ensures SpaceRun(a + b) == SpaceRun(a)
  {
    var k := SpaceRun(a);
    if k == |a| {
      assert IsSpace(a[|a| - 1]);
    }
    SpaceRunIs(a + b, k);
  }

  lemma SuffixAppend(a: string, b: string, k: nat)
    requires k <= |a|
    ensures (a + b)[k..] == a[k..] + b
  {
  }

  /** No two whitespace characters are adjacent. */
  predicate NoDoubleSpace(s: string) {
    forall i :: 0 <= i < |s| - 1 ==> !(IsSpace(s[i]) && IsSpace(s[i + 1]))
  }

  /** The non-whitespace characters of `s`, in order. */
  function Visible(s: string): string
    decreases |s|
  {
    if |s| == 0 then "" else (if IsSpace(s[0]) then "" else [s[0]]) + Visible(s[1..])
  }

  lemma {:induction false} VisibleDropSpaces(s: string, k: nat)
    requires k <= |s|
    requires forall i :: 0 <= i < k ==> IsSpace(s[i])
    ensures Visible(s) == Visible(s[k..])
    decreases k
  {
    if k > 0 {
      assert s[1..][k - 1..] == s[k..];
      VisibleDropSpaces(s[1..], k - 1);
    }
  }

  /** `re.sub(r'\s{2,}', ' ', s)`: every maximal run of two or more whitespace
      characters becomes one space; single whitespace characters stay as they are. */
  function Collapse(s: string): string
    decreases |s|
  {
    if |s| == 0 then ""
    else
      var k := SpaceRun(s);
      if k >= 2 then " " + Collapse(s[k..]) else [s[0]] + Collapse(s[1..])
  }

  /** The collapse leaves no two whitespace characters adjacent, keeps every visible
      character and whether the text starts with whitespace, and changes nothing
      in a text that has no run to collapse. */
  lemma CollapseSpec(s: string)
    ensures NoDoubleSpace(Collapse(s))
    ensures Visible(Collapse(s)) == Visible(s)
    ensures |s| > 0 ==> |Collapse(s)| > 0 && (IsSpace(Collapse(s)[0]) <==> IsSpace(s[0]))
    ensures NoDoubleSpace(s) ==> Collapse(s) == s
  {
    CollapseNoDouble(s);
    CollapseVisible(s);
    if NoDoubleSpace(s) {
      CollapseFixes(s);
    }
  }

  lemma {:induction false} CollapseNoDouble(s: string)
    ensures NoDoubleSpace(Collapse(s))
    ensures |s| > 0 ==> |Collapse(s)| > 0 && (IsSpace(Collapse(s)[0]) <==> IsSpace(s[0]))
    decreases |s|
  {
    if |s| > 0 {
      var k := SpaceRun(s);
      if k >= 2 {
        CollapseNoDouble(s[k..]);
        assert (" " + Collapse(s[k..]))[1..] == Collapse(s[k..]);
      } else {
        CollapseNoDouble(s[1..]);
        assert ([s[0]] + Collapse(s[1..]))[1..] == Collapse(s[1..]);
      }
    }
  }

  lemma {:induction false} CollapseVisible(s: string)
    ensures Visible(Collapse(s)) == Visible(s)
    decreases |s|
  {
    if |s| > 0 {
      var k := SpaceRun(s);
      if k >= 2 {
        CollapseVisible(s[k..]);
        VisibleDropSpaces(s, k);
        assert (" " + Collapse(s[k..]))[1..] == Collapse(s[k..]);
      } else {
        CollapseVisible(s[1..]);
        assert ([s[0]] + Collapse(s[1..]))[1..] == Collapse(s[1..]);
      }
    }
  }

  lemma {:induction false} CollapseFixes(s: string)
    requires NoDoubleSpace(s)
    ensures Collapse(s) == s
    decreases |s|
  {
    if |s| > 0 {
      assert SpaceRun(s) < 2;
      CollapseFixes(s[1..]);
    }
  }

  /** One step of the collapse over a leading run of two or more whitespace characters. */
  lemma CollapseRunStep(s: string, k: nat)
    requires |s| > 0 && k == SpaceRun(s) >= 2
    ensures Collapse(s) == " " + Collapse(s[k..])
  {
  }

  /** One step of the collapse over a leading character that starts no long run. */
  lemma CollapseCharStep(s: string)
    requires |s| > 0 && SpaceRun(s) < 2
    ensures Collapse(s) == [s[0]] + Collapse(s[1..])
  {
  }

  lemma ConcatAssoc(x: string, y: string, z: string)
    ensures x + (y + z) == (x + y) + z
  {
  }

  lemma CollapseRunShift(a: string, b: string, k: nat)
    requires k <= |a| && |a + b| > 0 && k == SpaceRun(a + b) >= 2
    ensures Collapse(a + b) == " " + Collapse(a[k..] + b)
  {
    SuffixAppend(a, b, k);
    CollapseRunStep(a + b, k);
  }

  /** The leading-run case of `CollapseAppend`, given the result for the rest. */
  lemma CollapseAppendRun(a: string, b: string, k: nat)
    requires |a| > 0 && NoRunAcross(a, b) && k == SpaceRun(a) >= 2
    requires k < |a| ==> Collapse(a[k..] + b) == Collapse(a[k..]) + Collapse(b)
    ensures Collapse(a + b) == Collapse(a) + Collapse(b)
  {
    SpaceRunAppend(a, b);
    CollapseRunShift(a, b, k);
    CollapseRunStep(a, k);
    if k < |a| {
      ConcatAssoc(" ", Collapse(a[k..]), Collapse(b));
    } else {
      assert a[k..] == "" && a[k..] + b == b;
    }
  }

  /** The single-character case of `CollapseAppend`, given the result for the rest. */
  lemma CollapseAppendChar(a: string, b: string)
    requires |a| > 0 && NoRunAcross(a, b) && SpaceRun(a) < 2
    requires Collapse(a[1..] + b) == Collapse(a[1..]) + Collapse(b)
    ensures Collapse(a + b) == Collapse(a) + Collapse(b)
  {
    SpaceRunAppend(a, b);
    SuffixAppend(a, b, 1);
    CollapseCharStep(a + b);
    CollapseCharStep(a);
    assert (a + b)[0] == a[0];
    ConcatAssoc([a[0]], Collapse(a[1..]), Collapse(b));
  }

  /** Dropping the first character keeps the seam free of a whitespace run. */
  lemma NoRunAcrossTail(a: string, b: string, k: nat)
    requires k <= |a| && NoRunAcross(a, b)
    ensures NoRunAcross(a[k..], b)
  {
    if k < |a| {
      assert a[k..][|a[k..]| - 1] == a[|a| - 1];
    }
  }

  /** Collapsing works piece by piece as long as no whitespace run crosses the seam. */
  lemma {:induction false} CollapseAppend(a: string, b: string)
    requires NoRunAcross(a, b)
    ensures Collapse(a + b) == Collapse(a) + Collapse(b)
    decreases |a|
  {
    if |a| == 0 {
      assert a + b == b;
    } else {
      var k := SpaceRun(a);
      if k >= 2 {
        if k < |a| {
          NoRunAcrossTail(a, b, k);
          CollapseAppend(a[k..], b);
        }
        CollapseAppendRun(a, b, k);
      } else {
        NoRunAcrossTail(a, b, 1);
        CollapseAppend(a[1..], b);
        CollapseAppendChar(a, b);
      }
    }
  }

  /** A maximal run of two or more whitespace characters becomes one space. */
  lemma CollapseRun(a: string, w: string, b: string)
    requires |w| >= 2 && forall i :: 0 <= i < |w| ==> IsSpace(w[i])
    requires a == "" || !IsSpace(a[|a| - 1])
    requires b == "" || !IsSpace(b[0])
    ensures Collapse(a + w + b) == Collapse(a) + " " + Collapse(b)
  {
    var rest := w + b;
    SpaceRunIs(rest, |w|);
    assert rest[|w|..] == b;
    CollapseRunStep(rest, |w|);
    CollapseAppend(a, rest);
    ConcatAssoc(a, w, b);
    ConcatAssoc(Collapse(a), " ", Collapse(b));
  }

  /** A single whitespace character between two visible ones stays as it is. */
  lemma CollapseSingle(a: string, c: char, b: string)
    requires IsSpace(c)
    requires a == "" || !IsSpace(a[|a| - 1])
    requires b == "" || !IsSpace(b[0])
    ensures Collapse(a + [c] + b) == Collapse(a) + [c] + Collapse(b)
  {
    var rest := [c] + b;
    SpaceRunIs(rest, 1);
    assert rest[1..] == b && rest[0] == c;
    CollapseCharStep(rest);
    CollapseAppend(a, rest);
    ConcatAssoc(a, [c], b);
    ConcatAssoc(Collapse(a), [c], Collapse(b));
  }

  /** The whitespace cleanup applied to every parsed notes token. */
  function Clean(s: string): (r: string)
    ensures NoDoubleSpace(r)
    ensures Visible(r) == Visible(StripEdge(s))
  {
    CollapseSpec(StripEdge(s));
    Collapse(StripEdge(s))
  }

  // ---------------------------------------------------------------------------
  // Grinder names: `re.sub(r'\s+|-', '_', name.lower())`
  // ---------------------------------------------------------------------------

  predicate IsUpperAscii(c: char) {
    'A' <= c <= 'Z'
  }

  function LowerAscii(c: char): (d: char)
    ensures !IsUpperAscii(d)
  {
    if IsUpperAscii(c) then (c as int + 32) as char else c
  }

  /** A character the normalisation neither inserts nor replaces. */
  predicate Significant(c: char) {
    !IsSpace(c) && c != '-' && c != '_'
  }

  /** The significant characters of `s`, lower-cased, in order. */
  function SignificantLower(s: string): string
    decreases |s|
  {
    if |s| == 0 then ""
    else (if Significant(s[0]) then [LowerAscii(s[0])] else "") + SignificantLower(s[1..])
  }

  /** A name already in normal form: no whitespace, no hyphen, no upper case. */
  predicate IsNormalName(s: string) {
    forall i :: 0 <= i < |s| ==> !IsSpace(s[i]) && s[i] != '-' && !IsUpperAscii(s[i])
  }

  lemma {:induction false} SignificantLowerDropSpaces(s: string, k: nat)
    requires k <= |s|
    requires forall i :: 0 <= i < k ==> IsSpace(s[i])
    ensures SignificantLower(s) == SignificantLower(s[k..])
    decreases k
  {
    if k > 0 {
      assert s[1..][k - 1..] == s[k..];
      SignificantLowerDropSpaces(s[1..], k - 1);
    }
  }

  /** `re.sub(r'\s+|-', '_', s.lower())`: lower-case the name, then turn every
      whitespace run and every hyphen into one underscore. */
  function NormalizeName(s: string): (r: string)
    ensures IsNormalName(r)
    ensures SignificantLower(r) == SignificantLower(s)
    decreases |s|
  {
    if |s| == 0 then ""
    else if IsSpace(s[0]) then
      var k := SpaceRun(s);
      SignificantLowerDropSpaces(s, k);
      var tail := NormalizeName(s[k..]);
      NormalCons('_', tail);
      "_" + tail
    else
      var c := if s[0] == '-' then '_' else LowerAscii(s[0]);
      var tail := NormalizeName(s[1..]);
      NormalCons(c, tail);
      NormalCharStep(s[0], c);
      [c] + tail
  }

  /** Putting a normal character in front keeps a name normal and adds that
      character's contribution to its significant letters. */
  lemma NormalCons(c: char, tail: string)
    requires !IsSpace(c) && c != '-' && !IsUpperAscii(c) && IsNormalName(tail)
    ensures IsNormalName([c] + tail)
    ensures SignificantLower([c] + tail) == (if Significant(c) then [c] else "") + SignificantLower(tail)
  {
    assert ([c] + tail)[1..] == tail;
    assert LowerAscii(c) == c;
  }

  /** Replacing a hyphen or lower-casing a letter leaves what it contributes to
      the significant letters unchanged. */
  lemma NormalCharStep(x: char, c: char)
    requires !IsSpace(x) && c == (if x == '-' then '_' else LowerAscii(x))
    ensures !IsSpace(c) && c != '-' && !IsUpperAscii(c)
    ensures (if Significant(c) then [c] else "") == (if Significant(x) then [LowerAscii(x)] else "")
  {
    if x != '-' && IsUpperAscii(x) {
      assert 'a' <= c <= 'z';
    }
  }

  /** A name in normal form is its own normalisation. */
  lemma {:induction false} NormalizeNameFixed(s: string)
    requires IsNormalName(s)
    ensures NormalizeName(s) == s
    decreases |s|
  {
    if |s| > 0 {
      NormalizeNameFixed(s[1..]);
    }
  }

  /** One step of the normalisation over a leading whitespace run. */
  lemma NormalizeRunStep(s: string, k: nat)
    requires |s| > 0 && IsSpace(s[0]) && k == SpaceRun(s)
    ensures NormalizeName(s) == "_" + NormalizeName(s[k..])
  {
  }

  /** One step of the normalisation over a leading non-whitespace character. */
  lemma NormalizeCharStep(s: string)
    requires |s| > 0 && !IsSpace(s[0])
    ensures NormalizeName(s) == [if s[0] == '-' then '_' else LowerAscii(s[0])] + NormalizeName(s[1..])
  {
  }

  /** The leading-run case of `NormalizeNameAppend`, given the result for the rest. */
  lemma NormalizeAppendRun(a: string, b: string, k: nat)
    requires |a| > 0 && IsSpace(a[0]) && NoRunAcross(a, b) && k == SpaceRun(a)
    requires k < |a| ==> NormalizeName(a[k..] + b) == NormalizeName(a[k..]) + NormalizeName(b)
    ensures NormalizeName(a + b) == NormalizeName(a) + NormalizeName(b)
  {
    SpaceRunAppend(a, b);
    SuffixAppend(a, b, k);
    NormalizeRunStep(a + b, k);
    NormalizeRunStep(a, k);
    if k < |a| {
      ConcatAssoc("_", NormalizeName(a[k..]), NormalizeName(b));
    } else {
      assert a[k..] == "" && a[k..] + b == b;
    }
  }

  /** The single-character case of `NormalizeNameAppend`, given the result for the rest. */
  lemma NormalizeAppendChar(a: string, b: string)
    requires |a| > 0 && !IsSpace(a[0])
    requires NormalizeName(a[1..] + b) == NormalizeName(a[1..]) + NormalizeName(b)
    ensures NormalizeName(a + b) == NormalizeName(a) + NormalizeName(b)
  {
    var c := if a[0] == '-' then '_' else LowerAscii(a[0]);
    SuffixAppend(a, b, 1);
    assert (a + b)[0] == a[0];
    NormalizeCharStep(a + b);
    NormalizeCharStep(a);
    ConcatAssoc([c], NormalizeName(a[1..]), NormalizeName(b));
  }

  /** Normalising works piece by piece as long as no whitespace run crosses the seam. */
  lemma {:induction false} NormalizeNameAppend(a: string, b: string)
    requires NoRunAcross(a, b)
    ensures NormalizeName(a + b) == NormalizeName(a) + NormalizeName(b)
    decreases |a|
  {
    if |a| == 0 {
      assert a + b == b;
    } else if IsSpace(a[0]) {
      var k := SpaceRun(a);
      if k < |a| {
        NoRunAcrossTail(a, b, k);
        NormalizeNameAppend(a[k..], b);
      }
      NormalizeAppendRun(a, b, k);
    } else {
      NoRunAcrossTail(a, b, 1);
      NormalizeNameAppend(a[1..], b);
      NormalizeAppendChar(a, b);
    }
  }

  /** Every hyphen becomes one underscore. */
  lemma NormalizeHyphen(a: string, b: string)
    ensures NormalizeName(a + "-" + b) == NormalizeName(a) + "_" + NormalizeName(b)
  {
    var rest := "-" + b;
    assert rest[0] == '-' && rest[1..] == b;
    NormalizeCharStep(rest);
    NormalizeNameAppend(a, rest);
    ConcatAssoc(a, "-", b);
    ConcatAssoc(NormalizeName(a), "_", NormalizeName(b));
  }

  /** Every maximal whitespace run, however long, becomes one underscore. */
  lemma NormalizeSpaceRun(a: string, w: string, b: string)
    requires |w| > 0 && forall i :: 0 <= i < |w| ==> IsSpace(w[i])
    requires a == "" || !IsSpace(a[|a| - 1])
    requires b == "" || !IsSpace(b[0])
    ensures NormalizeName(a + w + b) == NormalizeName(a) + "_" + NormalizeName(b)
  {
    var rest := w + b;
    SpaceRunIs(rest, |w|);
    assert rest[0] == w[0] && rest[|w|..] == b;
    NormalizeRunStep(rest, |w|);
    NormalizeNameAppend(a, rest);
    ConcatAssoc(a, w, b);
    ConcatAssoc(NormalizeName(a), "_", NormalizeName(b));
  }

  /** Away from separators, normalising only lower-cases, character by character. */
  lemma {:induction false} NormalizeNameLowers(s: string)
    requires forall i :: 0 <= i < |s| ==> !IsSpace(s[i]) && s[i] != '-'
    ensures |NormalizeName(s)| == |s|
    ensures forall i :: 0 <= i < |s| ==> NormalizeName(s)[i] == LowerAscii(s[i])
    decreases |s|
  {
    if |s| > 0 {
      NormalizeNameLowers(s[1..]);
    }
  }

  /** Normalising twice gives the same key as normalising once. */
  lemma NormalizeNameIdempotent(s: string)
    ensures NormalizeName(NormalizeName(s)) == NormalizeName(s)
  {
    NormalizeNameFixed(NormalizeName(s));
  }
}

=== FILE: pipeline.dfy ===
/** `preprocess_data` of the two pipelines (coffee.guru CSV export and
    Beanconqueror backup): strip the weight unit, parse the notes into field
    columns, then run the validators in a fixed order, stopping at the first
    failure. The two scripts differ only in column names, labels and the
    required-column list, gathered here in a `Schema`. */
module Pipeline {
  import opened Wrappers
  import opened Strings
  import opened Patterns
  import opened IntParse
  import opened Frame
  import opened Validators
  import opened Notes

  /** A grinder's inclusive range of grind settings (`min`, `max` in the configuration). */
  datatype Range = Range(lo: int, hi: int)

  /** The parts of the configuration file the validation reads. */
  datatype Config = Config(
    adverbs: seq<string>,
    flavors: seq<string>,
    balance: seq<string>,
    ranges: map<string, Range>)

  /** Where a pipeline keeps each field. */
  datatype Schema = Schema(
    unitColumn: Option<string>,   // the column whose " g" suffix is deleted, if any
    noteColumn: string,
    labels: seq<string>,          // the label tokens deleted from the notes
    fields: seq<string>,          // the names given to the parsed notes columns
    required: seq<string>,        // the columns that may not hold missing values
    score: string,
    flavor: string,
    balance: string,
    grinder: string,
    grind: string)

  /** load_coffee_logs.py */
  const CoffeeSchema := Schema(
    Some("Coffee"), "Note",
    ["Bean:", "Grinder:", "Grind:", "Flavor:", "Balance:"],
    ["Bean", "Grinder", "Grind", "Flavor", "Balance"],
    ["Score (out of 5)", "Bean", "Grind", "Flavor", "Balance"],
    "Score (out of 5)", "Flavor", "Balance", "Grinder", "Grind")

  /** load_beanconqueror_logs.py */
  const BeanconquerorSchema := Schema(
    None, "note",
    ["Flavor:", "Balance:"],
    ["flavor", "balance"],
    ["rating", "roaster", "bean", "grinder", "grind_size", "brew_temperature", "flavor", "balance"],
    "rating", "flavor", "balance", "grinder", "grind_size")

  /** What both schemas satisfy: labels the notes parser can delete, distinct field
      names, and every validated column except the grinder on the required list. */
  predicate WellFormed(schema: Schema) {
    && LabelSet(schema.labels)
    && Distinct(schema.fields)
    && schema.score in schema.required
    && schema.flavor in schema.required
    && schema.balance in schema.required
    && schema.grind in schema.required
  }

  /** Letters and colons only, as every label of both schemas. */
  predicate LetterLabel(s: string) {
    forall i :: 0 <= i < |s| ==> 'A' <= s[i] <= 'Z' || 'a' <= s[i] <= 'z' || s[i] == ':'
  }

  lemma LetterLabelsTokens(labels: seq<string>)
    requires forall k :: 0 <= k < |labels| ==> |labels[k]| > 0 && LetterLabel(labels[k])
    ensures forall k, i :: 0 <= k < |labels| && 0 <= i < |labels[k]| ==> !IsSpace(labels[k][i]) && labels[k][i] != '/'
  {
  }

  lemma BeanLetters() ensures LetterLabel("Bean:") {}
  lemma GrinderLetters() ensures LetterLabel("Grinder:") {}
  lemma GrindLetters() ensures LetterLabel("Grind:") {}
  lemma FlavorLetters() ensures LetterLabel("Flavor:") {}
  lemma BalanceLetters() ensures LetterLabel("Balance:") {}

  lemma CoffeeLetters()
    ensures forall k :: 0 <= k < |CoffeeSchema.labels| ==> |CoffeeSchema.labels[k]| > 0 && LetterLabel(CoffeeSchema.labels[k])
  {
    BeanLetters();
    GrinderLetters();
    GrindLetters();
    FlavorLetters();
    BalanceLetters();
  }

  lemma CoffeePrefixFree()
    ensures forall k, l :: 0 <= k < |CoffeeSchema.labels| && 0 <= l < |CoffeeSchema.labels| && k != l ==>
      !(CoffeeSchema.labels[k] <= CoffeeSchema.labels[l])
  {
    var c := CoffeeSchema.labels;
    forall k, l | 0 <= k < |c| && 0 <= l < |c| && k != l
      ensures !(c[k] <= c[l])
    {
      var m := if (k == 0 && l == 4) || (k == 4 && l == 0) then 1
               else if (k == 1 && l == 2) || (k == 2 && l == 1) then 5
               else 0;
      PrefixDiffers(c[k], c[l], m);
    }
  }

  lemma CoffeeLabels()
    ensures LabelSet(CoffeeSchema.labels)
  {
    CoffeeLetters();
    LetterLabelsTokens(CoffeeSchema.labels);
    CoffeePrefixFree();
  }

  lemma BeanconquerorLabels()
    ensures LabelSet(BeanconquerorSchema.labels)
  {
    var b := BeanconquerorSchema.labels;
    FlavorLetters();
    BalanceLetters();
    LetterLabelsTokens(b);
    forall k, l | 0 <= k < |b| && 0 <= l < |b| && k != l
      ensures !(b[k] <= b[l])
    {
      PrefixDiffers(b[k], b[l], 0);
    }
  }

  /** Both pipelines' schemas meet what the parser and the validation assume. */
  lemma SchemasWellFormed()
    ensures WellFormed(CoffeeSchema)
    ensures WellFormed(BeanconquerorSchema)
  {
    CoffeeLabels();
    BeanconquerorLabels();
    assert CoffeeSchema.required[0] == CoffeeSchema.score;
    assert BeanconquerorSchema.required[0] == BeanconquerorSchema.score;
  }

  // ---------------------------------------------------------------------------
  // Parsing stage
  // ---------------------------------------------------------------------------

  /** `.str.replace(' g', '')` on one cell of the weight column; a cell that is not
      text becomes missing, as the `.str` accessor makes it. */
  function StripUnit(c: Cell): (r: Cell)
    ensures IsText(c) <==> IsText(r)
    ensures IsText(c) ==> |r.value.s| <= |c.value.s|
  {
    if IsText(c) then Some(Str(RemoveAll(c.value.s, [" g"]))) else None
  }

  /** A weight cell without the unit is left unchanged. */
  lemma StripUnitKeepsPlain(s: string)
    requires NoOccurrence(s, [" g"])
    ensures StripUnit(Some(Str(s))) == Some(Str(s))
  {
    RemoveAllFree(s, [" g"]);
  }

  /** Only occurrences of the unit are deleted. */
  lemma StripUnitDeletesOnlyUnit(s: string)
    ensures Unlabels(s, StripUnit(Some(Str(s))).value.s, [" g"])
  {
    RemoveAllOnlyDeletesPatterns(s, [" g"]);
  }

  /** A weight written as `<grams> g` becomes the number as text. */
  lemma StripUnitOfWeight(grams: int)
    ensures StripUnit(Some(Str(ShowInt(grams) + " g"))) == Some(Str(ShowInt(grams)))
  {
    var digits := ShowInt(grams);
    var pats := [" g"];
    assert forall i :: 0 <= i < |digits| ==> digits[i] != ' ' by {
      var m: nat := if grams < 0 then -grams else grams;
      assert grams < 0 ==> digits == "-" + ShowNat(m);
      assert grams >= 0 ==> digits == ShowNat(m);
    }
    forall i | 0 <= i < |digits|
      ensures NoMatchAt(digits + " g", i, pats)
    {
      PrefixDiffers(pats[0], (digits + " g")[i..], 0);
    }
    RemoveAllAppend(digits, " g", pats);
    assert " g" == " g" + "";
    RemoveAllLeading(" g", "", pats);
    assert digits + "" == digits;
  }

  /** The table with the unit stripped from its weight column, if the schema has one. */
  function StripUnitColumn(unit: Option<string>, t: Table): (r: Result<Table, Error>)
    ensures unit.None? ==> r == Ok(t)
    ensures unit.Some? && unit.value !in t ==> r == Err(KeyMissing(unit.value))
    ensures r.Ok? ==> r.value.Keys == t.Keys
    ensures r.Ok? ==> forall c :: c in t && Some(c) != unit ==> r.value[c] == t[c]
    ensures r.Ok? && unit.Some? ==>
      && |r.value[unit.value]| == |t[unit.value]|
      && forall i :: 0 <= i < |t[unit.value]| ==> r.value[unit.value][i] == StripUnit(t[unit.value][i])
  {
    match unit
    case None => Ok(t)
    case Some(c) =>
      if c !in t then Err(KeyMissing(c))
      else
        var col := t[c];
        Ok(t[c := seq(|col|, i requires 0 <= i < |col| => StripUnit(col[i]))])
  }

  /** Unit strip, notes parsing, and the notes column replaced by the field columns. */
  function ParseStage(schema: Schema, t: Table): (r: Result<Table, Error>)
    requires WellFormed(schema)
    ensures r.Ok? ==> schema.noteColumn in t
    ensures r.Ok? ==> forall c :: c in r.value <==> (c in t && c != schema.noteColumn) || c in schema.fields
    ensures r.Ok? ==> forall c :: c in t && c != schema.noteColumn && c !in schema.fields && Some(c) != schema.unitColumn ==>
      r.value[c] == t[c]
    ensures r.Ok? && schema.unitColumn.Some? && schema.unitColumn.value != schema.noteColumn
              && schema.unitColumn.value !in schema.fields ==>
      var u := schema.unitColumn.value;
      && u in t && u in r.value && |r.value[u]| == |t[u]|
      && forall i :: 0 <= i < |t[u]| ==> r.value[u][i] == StripUnit(t[u][i])
    ensures r.Ok? && Some(schema.noteColumn) != schema.unitColumn ==> forall j :: 0 <= j < |schema.fields| ==>
      r.value[schema.fields[j]] == FieldColumn(t[schema.noteColumn], schema.labels, j)
    ensures Some(schema.noteColumn) != schema.unitColumn ==>
      (r.Ok? <==> && (schema.unitColumn.Some? ==> schema.unitColumn.value in t)
                  && schema.noteColumn in t
                  && ExpandNotes(t[schema.noteColumn], schema.labels, schema.fields).Ok?)
    ensures r.Err? ==> r.error.KeyMissing? || r.error.LengthMismatch?
  {
    match StripUnitColumn(schema.unitColumn, t)
    case Err(e) => Err(e)
    case Ok(t1) =>
      if schema.noteColumn !in t1 then Err(KeyMissing(schema.noteColumn))
      else
        match ExpandNotes(t1[schema.noteColumn], schema.labels, schema.fields)
        case Err(e) => Err(e)
        case Ok(cols) =>
          Ok((t1 - {schema.noteColumn}) + cols)
  }

  /** Parsing keeps the batch rectangular. */
  lemma ParseStageRows(schema: Schema, t: Table, n: nat)
    requires WellFormed(schema) && HasRows(t, n) && ParseStage(schema, t).Ok?
    ensures HasRows(ParseStage(schema, t).value, n)
  {
    var t1 := StripUnitColumn(schema.unitColumn, t).value;
    assert HasRows(t1, n);
  }

  /** Column `names[j]` of `t` holds field `j` of every row. */
  predicate HoldsFields(t: Table, names: seq<string>, rows: seq<seq<string>>) {
    forall i, j :: 0 <= i < |rows| && 0 <= j < |names| && j < |rows[i]| ==>
      names[j] in t && i < |t[names[j]]| && t[names[j]][i] == Some(Str(rows[i][j]))
  }

  /** Notes written in the labelled format parse back into their fields, one column each. */
  lemma ParseStageRendered(schema: Schema, t: Table, rows: seq<seq<string>>)
    requires WellFormed(schema) && |schema.labels| == |schema.fields|
    requires Some(schema.noteColumn) != schema.unitColumn
    requires schema.unitColumn.Some? ==> schema.unitColumn.value in t
    requires schema.noteColumn in t && |rows| > 0 && RenderedColumn(t[schema.noteColumn], schema.labels, rows)
    ensures ParseStage(schema, t).Ok? && HoldsFields(ParseStage(schema, t).value, schema.fields, rows)
  {
    var note := t[schema.noteColumn];
    RenderedRowsExpand(note, schema.labels, schema.fields, rows);
    var p := ParseStage(schema, t).value;
    forall i, j | 0 <= i < |rows| && 0 <= j < |schema.fields| && j < |rows[i]|
      ensures schema.fields[j] in p && i < |p[schema.fields[j]]| && p[schema.fields[j]][i] == Some(Str(rows[i][j]))
    {
      RenderedFieldColumn(note, schema.labels, rows, j);
      assert p[schema.fields[j]] == FieldColumn(note, schema.labels, j);
    }
  }

  // ---------------------------------------------------------------------------
  // Validation stage
  // ---------------------------------------------------------------------------

  /** `logs[col].unique()`: each distinct cell once. */
  function Unique(col: Column): (r: seq<Cell>)
    ensures forall c :: c in r <==> c in col
    ensures Distinct(r)
  {
    if |col| == 0 then []
    else
      var init := col[..|col| - 1];
      var u := Unique(init);
      var last := col[|col| - 1];
      assert col == init + [last];
      if last in u then u else u + [last]
  }

  /** The rows of one grinder: `logs['Grinder'].eq(grinder)`. */
  function SameGrinder(grinderCol: Column, g: Cell): (mask: seq<bool>)
    ensures |mask| == |grinderCol|
    ensures forall i :: 0 <= i < |grinderCol| ==> (mask[i] <==> grinderCol[i] == g)
  {
    seq(|grinderCol|, i requires 0 <= i < |grinderCol| => grinderCol[i] == g)
  }

  /** A grinder cell is a name whose normalised form has a configured range. */
  predicate KnownGrinder(g: Cell, ranges: map<string, Range>) {
    IsText(g) && NormalizeName(g.value.s) in ranges
  }

  function RangeOf(g: Cell, ranges: map<string, Range>): Range
    requires KnownGrinder(g, ranges)
  {
    ranges[NormalizeName(g.value.s)]
  }

  /** A grind setting reads as an integer inside the inclusive range. */
  predicate SettingOk(v: Cell, range: Range) {
    Coerce(v).Some? && range.lo <= Coerce(v).value <= range.hi
  }

  /** The reference rule for the grind columns of one row. */
  predicate GrindOk(g: Cell, v: Cell, ranges: map<string, Range>) {
    KnownGrinder(g, ranges) && SettingOk(v, RangeOf(g, ranges))
  }

  /** Every row of grinder `g` has a setting inside `range`. */
  predicate GrinderRowsOk(g: Cell, grinderCol: Column, grindCol: Column, range: Range)
    requires |grindCol| == |grinderCol|
  {
    forall i :: 0 <= i < |grinderCol| && grinderCol[i] == g ==> SettingOk(grindCol[i], range)
  }

  lemma GrinderSelection(g: Cell, grinderCol: Column, grindCol: Column, range: Range)
    requires |grindCol| == |grinderCol|
    ensures var rows := Select(grindCol, SameGrinder(grinderCol, g));
      (forall e :: e in rows ==> Coerce(e.cell).Some? && range.lo <= Coerce(e.cell).value <= range.hi) <==>
      GrinderRowsOk(g, grinderCol, grindCol, range)
  {
    var rows := Select(grindCol, SameGrinder(grinderCol, g));
    assert forall i :: 0 <= i < |grinderCol| && grinderCol[i] == g ==> Entry(i, grindCol[i]) in rows;
  }

  /** One pass of the per-grinder loop: the name is normalised and looked up before
      any of the grinder's rows are read, then only its rows are range-checked. */
  function GrinderCheck(g: Cell, grinderCol: Column, t: Table, grind: string, ranges: map<string, Range>): (r: Outcome<Error>)
    requires grind in t ==> |t[grind]| == |grinderCol|
    ensures !IsText(g) ==> r == Fail(NotAName(g))
    ensures IsText(g) && NormalizeName(g.value.s) !in ranges ==> r == Fail(UnknownGrinder(g.value.s))
    ensures r.Pass? <==>
      KnownGrinder(g, ranges) && grind in t && GrinderRowsOk(g, grinderCol, t[grind], RangeOf(g, ranges))
  {
    if !IsText(g) then Fail(NotAName(g))
    else
      var key := NormalizeName(g.value.s);
      if key !in ranges then Fail(UnknownGrinder(g.value.s))
      else if grind !in t then Fail(KeyMissing(grind))
      else
        GrinderSelection(g, grinderCol, t[grind], ranges[key]);
        ValidateGrindSettings(Select(t[grind], SameGrinder(grinderCol, g)), ranges[key].lo, ranges[key].hi)
  }

  /** The settings check over one grinder's selected rows reports those rows and no
      others: every unreadable one, or else every one outside `range`. */
  lemma SelectedSettingsReport(g: Cell, grinderCol: Column, grindCol: Column, range: Range)
    requires |grindCol| == |grinderCol|
    ensures var r := ValidateGrindSettings(Select(grindCol, SameGrinder(grinderCol, g)), range.lo, range.hi);
      r.Fail? ==> forall x :: x in r.error.values ==> x.row < |grinderCol| && grinderCol[x.row] == g
    ensures var r := ValidateGrindSettings(Select(grindCol, SameGrinder(grinderCol, g)), range.lo, range.hi);
      r.Fail? && r.error.NonInteger? ==>
        forall i :: 0 <= i < |grinderCol| && grinderCol[i] == g && Coerce(grindCol[i]).None? ==>
          Entry(i, grindCol[i]) in r.error.values
    ensures var r := ValidateGrindSettings(Select(grindCol, SameGrinder(grinderCol, g)), range.lo, range.hi);
      r.Fail? && r.error.OutOfRange? ==>
        && r.error.lo == range.lo && r.error.hi == range.hi
        && forall i :: (0 <= i < |grinderCol| && grinderCol[i] == g && Coerce(grindCol[i]).Some? &&
                        !SettingOk(grindCol[i], range)) ==>
             Entry(i, Some(Int(Coerce(grindCol[i]).value))) in r.error.values
  {
    var rows := Select(grindCol, SameGrinder(grinderCol, g));
    var r := ValidateGrindSettings(rows, range.lo, range.hi);
    forall i | 0 <= i < |grinderCol| && grinderCol[i] == g
      ensures Entry(i, grindCol[i]) in rows
    {
    }
    if r.Fail? && r.error.OutOfRange? {
      forall x | x in r.error.values
        ensures x.row < |grinderCol| && grinderCol[x.row] == g
      {
        var e :| e in rows && e.row == x.row && Coerce(e.cell) == Some(x.cell.value.i);
      }
    }
  }

  /** A grinder's report names that grinder's rows and no others: every row of it
      whose setting cannot be read, or else every row of it outside the grinder's
      own range, with that range as the bounds. */
  lemma GrinderCheckReportsOwnRows(g: Cell, grinderCol: Column, t: Table, grind: string, ranges: map<string, Range>)
    requires grind in t ==> |t[grind]| == |grinderCol|
    ensures var r := GrinderCheck(g, grinderCol, t, grind, ranges);
      r.Fail? && (r.error.NonInteger? || r.error.OutOfRange?) ==>
        forall x :: x in r.error.values ==> x.row < |grinderCol| && grinderCol[x.row] == g
    ensures var r := GrinderCheck(g, grinderCol, t, grind, ranges);
      r.Fail? && r.error.NonInteger? ==>
        && grind in t
        && forall i :: 0 <= i < |grinderCol| && grinderCol[i] == g && Coerce(t[grind][i]).None? ==>
             Entry(i, t[grind][i]) in r.error.values
    ensures var r := GrinderCheck(g, grinderCol, t, grind, ranges);
      r.Fail? && r.error.OutOfRange? ==>
        && KnownGrinder(g, ranges) && grind in t
        && r.error.lo == RangeOf(g, ranges).lo && r.error.hi == RangeOf(g, ranges).hi
        && forall i :: (0 <= i < |grinderCol| && grinderCol[i] == g && Coerce(t[grind][i]).Some? &&
                        !SettingOk(t[grind][i], RangeOf(g, ranges))) ==>
             Entry(i, Some(Int(Coerce(t[grind][i]).value))) in r.error.values
  {
    if KnownGrinder(g, ranges) && grind in t {
      SelectedSettingsReport(g, grinderCol, t[grind], RangeOf(g, ranges));
    }
  }

  /** The loop over the grinders, stopping at the first one that fails. */
  function CheckGrinders(gs: seq<Cell>, grinderCol: Column, t: Table, grind: string, ranges: map<string, Range>): (r: Outcome<Error>)
    requires grind in t ==> |t[grind]| == |grinderCol|
    ensures r.Pass? <==> forall k :: 0 <= k < |gs| ==> GrinderCheck(gs[k], grinderCol, t, grind, ranges).Pass?
    ensures r.Fail? ==> exists k :: 0 <= k < |gs| && r == GrinderCheck(gs[k], grinderCol, t, grind, ranges)
  {
    if |gs| == 0 then Pass
    else
      var first := GrinderCheck(gs[0], grinderCol, t, grind, ranges);
      if first.Fail? then first
      else
        var rest := CheckGrinders(gs[1..], grinderCol, t, grind, ranges);
        assert forall k :: 1 <= k < |gs| ==> gs[k] == gs[1..][k - 1];
        rest
  }

  /** `logs['Balance'].ne('Balanced')`. */
  function NotBalanced(col: Column): (mask: seq<bool>)
    ensures |mask| == |col|
    ensures forall i :: 0 <= i < |col| ==> (mask[i] <==> col[i] != Some(Str("Balanced")))
  {
    seq(|col|, i requires 0 <= i < |col| => col[i] != Some(Str("Balanced")))
  }

  /** The grinder loop of the validation. */
  function GrinderStep(schema: Schema, config: Config, t: Table, n: nat): Outcome<Error>
    requires HasRows(t, n)
  {
    if schema.grinder !in t then Fail(KeyMissing(schema.grinder))
    else
      var grinderCol := t[schema.grinder];
      CheckGrinders(Unique(grinderCol), grinderCol, t, schema.grind, config.ranges)
  }

  /** The two text checks: flavor, then balance with the exact cell "Balanced" excluded. */
  function TextStep(schema: Schema, config: Config, t: Table): Outcome<Error> {
    if schema.flavor !in t then Fail(KeyMissing(schema.flavor))
    else
      var flavor := ValidateText(Entries(t[schema.flavor]), config.adverbs, config.flavors);
      if flavor.Fail? then flavor
      else if schema.balance !in t then Fail(KeyMissing(schema.balance))
      else
        var balanceCol := t[schema.balance];
        ValidateText(Select(balanceCol, NotBalanced(balanceCol)), config.adverbs, config.balance)
  }

  /** The checks after the score check: text, then the grinder loop. */
  function TextOnward(schema: Schema, config: Config, t: Table, n: nat): Outcome<Error>
    requires HasRows(t, n)
  {
    var text := TextStep(schema, config, t);
    if text.Fail? then text else GrinderStep(schema, config, t, n)
  }

  /** The checks after the missing-value check: scores, then the rest. */
  function ScoreOnward(schema: Schema, config: Config, t: Table, n: nat): Outcome<Error>
    requires HasRows(t, n)
  {
    if schema.score !in t then Fail(KeyMissing(schema.score))
    else
      var scores := CheckScores(t[schema.score]);
      if scores.Fail? then scores else TextOnward(schema, config, t, n)
  }

  /** The validation sequence: missing values, scores, flavor text, balance text,
      then each grinder in turn; the first failure is the result. */
  function Validate(schema: Schema, config: Config, t: Table, n: nat): Outcome<Error>
    requires HasRows(t, n)
  {
    var nan := CheckNanValues(t, schema.required);
    if nan.Fail? then nan else ScoreOnward(schema, config, t, n)
  }

  /** `preprocess_data`: the parsed batch when every check passes, else the first error. */
  function Preprocess(schema: Schema, config: Config, t: Table, n: nat): Result<Table, Error>
    requires WellFormed(schema) && HasRows(t, n)
  {
    match ParseStage(schema, t)
    case Err(e) => Err(e)
    case Ok(parsed) =>
      ParseStageRows(schema, t, n);
      match Validate(schema, config, parsed, n)
      case Fail(e) => Err(e)
      case Pass => Ok(parsed)
  }

  // ---------------------------------------------------------------------------
  // What an accepted batch satisfies, row by row
  // ---------------------------------------------------------------------------

  /** Every column the validation reads is present. */
  predicate HasColumns(schema: Schema, t: Table) {
    && (forall k :: 0 <= k < |schema.required| ==> schema.required[k] in t)
    && schema.score in t && schema.flavor in t && schema.balance in t
    && schema.grinder in t && schema.grind in t
  }

  /** The reference rule for one row of a batch. */
  predicate RowValid(schema: Schema, config: Config, t: Table, n: nat, i: nat)
    requires HasColumns(schema, t) && HasRows(t, n) && i < n
  {
    && (forall k :: 0 <= k < |schema.required| ==> t[schema.required[k]][i].Some?)
    && t[schema.score][i] != Some(Int(0))
    && WellWorded(t[schema.flavor][i], config.adverbs, config.flavors)
    && (t[schema.balance][i] == Some(Str("Balanced")) || WellWorded(t[schema.balance][i], config.adverbs, config.balance))
    && GrindOk(t[schema.grinder][i], t[schema.grind][i], config.ranges)
  }

  predicate ValidBatch(schema: Schema, config: Config, t: Table, n: nat)
    requires HasRows(t, n)
  {
    HasColumns(schema, t) && forall i :: 0 <= i < n ==> RowValid(schema, config, t, n, i)
  }

  /** The missing-value check passes exactly when no required cell of any row is missing. */
  lemma NanStage(schema: Schema, t: Table, n: nat)
    requires HasRows(t, n)
    ensures CheckNanValues(t, schema.required).Pass? <==>
      && (forall k :: 0 <= k < |schema.required| ==> schema.required[k] in t)
      && forall i, k :: 0 <= i < n && 0 <= k < |schema.required| ==> t[schema.required[k]][i].Some?
  {
  }

  /** The flavor check passes exactly when every row's flavor is well worded. */
  lemma FlavorStage(col: Column, adverbs: seq<string>, adjectives: seq<string>)
    ensures ValidateText(Entries(col), adverbs, adjectives).Pass? <==>
      forall i :: 0 <= i < |col| ==> WellWorded(col[i], adverbs, adjectives)
  {
    var es := Entries(col);
    assert forall i :: 0 <= i < |col| ==> es[i].cell == col[i];
  }

  lemma BalanceSelection(col: Column, adverbs: seq<string>, adjectives: seq<string>)
    ensures var es := Select(col, NotBalanced(col));
      (forall k :: 0 <= k < |es| ==> WellWorded(es[k].cell, adverbs, adjectives)) <==>
      forall i :: 0 <= i < |col| ==> col[i] == Some(Str("Balanced")) || WellWorded(col[i], adverbs, adjectives)
  {
    var es := Select(col, NotBalanced(col));
    if forall k :: 0 <= k < |es| ==> WellWorded(es[k].cell, adverbs, adjectives) {
      forall i | 0 <= i < |col| && col[i] != Some(Str("Balanced"))
        ensures WellWorded(col[i], adverbs, adjectives)
      {
        assert Entry(i, col[i]) in es;
        var k :| 0 <= k < |es| && es[k] == Entry(i, col[i]);
      }
    }
    if forall i :: 0 <= i < |col| ==> col[i] == Some(Str("Balanced")) || WellWorded(col[i], adverbs, adjectives) {
      forall k | 0 <= k < |es|
        ensures WellWorded(es[k].cell, adverbs, adjectives)
      {
        assert es[k] in es;
      }
    }
  }

  /** The balance check passes exactly when every row's balance is "Balanced" or well worded. */
  lemma BalanceStage(col: Column, adverbs: seq<string>, adjectives: seq<string>)
    ensures ValidateText(Select(col, NotBalanced(col)), adverbs, adjectives).Pass? <==>
      forall i :: 0 <= i < |col| ==> col[i] == Some(Str("Balanced")) || WellWorded(col[i], adverbs, adjectives)
  {
    BalanceSelection(col, adverbs, adjectives);
  }

  /** The grinder loop passes exactly when every row's grind setting is valid for its grinder. */
  lemma GrinderStage(grinderCol: Column, t: Table, grind: string, ranges: map<string, Range>)
    requires grind in t && |t[grind]| == |grinderCol|
    ensures CheckGrinders(Unique(grinderCol), grinderCol, t, grind, ranges).Pass? <==>
      forall i :: 0 <= i < |grinderCol| ==> GrindOk(grinderCol[i], t[grind][i], ranges)
  {
    var gs := Unique(grinderCol);
    var grindCol := t[grind];
    if CheckGrinders(gs, grinderCol, t, grind, ranges).Pass? {
      forall i | 0 <= i < |grinderCol|
        ensures GrindOk(grinderCol[i], grindCol[i], ranges)
      {
        assert grinderCol[i] in gs;
        var k :| 0 <= k < |gs| && gs[k] == grinderCol[i];
        assert GrinderCheck(gs[k], grinderCol, t, grind, ranges).Pass?;
      }
    } else {
      var k :| 0 <= k < |gs| && !GrinderCheck(gs[k], grinderCol, t, grind, ranges).Pass?;
      var g := gs[k];
      assert g in grinderCol;
      var i :| 0 <= i < |grinderCol| && grinderCol[i] == g;
      if GrindOk(g, grindCol[i], ranges) {
        assert !GrinderRowsOk(g, grinderCol, grindCol, RangeOf(g, ranges));
        var j :| 0 <= j < |grinderCol| && grinderCol[j] == g && !SettingOk(grindCol[j], RangeOf(g, ranges));
        assert !GrindOk(grinderCol[j], grindCol[j], ranges);
      }
    }
  }

  /** No required cell of the first `n` rows is missing. */
  predicate NoMissing(schema: Schema, t: Table, n: nat)
    requires HasColumns(schema, t) && HasRows(t, n)
  {
    forall i, k :: 0 <= i < n && 0 <= k < |schema.required| ==> t[schema.required[k]][i].Some?
  }

  /** No score is 0. */
  predicate Scored(col: Column) {
    forall i :: 0 <= i < |col| ==> col[i] != Some(Int(0))
  }

  /** Every flavor is well worded. */
  predicate FlavorsOk(col: Column, config: Config) {
    forall i :: 0 <= i < |col| ==> WellWorded(col[i], config.adverbs, config.flavors)
  }

  /** Every balance is exactly "Balanced" or well worded. */
  predicate BalancesOk(col: Column, config: Config) {
    forall i :: 0 <= i < |col| ==> col[i] == Some(Str("Balanced")) || WellWorded(col[i], config.adverbs, config.balance)
  }

  /** Every row's grind setting is valid for its grinder. */
  predicate GrindsOk(grinderCol: Column, grindCol: Column, ranges: map<string, Range>)
    requires |grindCol| == |grinderCol|
  {
    forall i :: 0 <= i < |grinderCol| ==> GrindOk(grinderCol[i], grindCol[i], ranges)
  }

  /** The column-by-column form of the row rule. */
  predicate ColumnsValid(schema: Schema, config: Config, t: Table, n: nat)
    requires HasColumns(schema, t) && HasRows(t, n)
  {
    && NoMissing(schema, t, n)
    && Scored(t[schema.score])
    && FlavorsOk(t[schema.flavor], config)
    && BalancesOk(t[schema.balance], config)
    && GrindsOk(t[schema.grinder], t[schema.grind], config.ranges)
  }

  lemma RowsByColumn(schema: Schema, config: Config, t: Table, n: nat)
    requires HasColumns(schema, t) && HasRows(t, n)
    ensures ValidBatch(schema, config, t, n) <==> ColumnsValid(schema, config, t, n)
  {
    if ColumnsValid(schema, config, t, n) {
      forall i | 0 <= i < n
        ensures RowValid(schema, config, t, n, i)
      {
      }
    }
    if ValidBatch(schema, config, t, n) {
      forall i, k | 0 <= i < n && 0 <= k < |schema.required|
        ensures t[schema.required[k]][i].Some?
      {
        assert RowValid(schema, config, t, n, i);
      }
      forall i | 0 <= i < n
        ensures t[schema.score][i] != Some(Int(0))
        ensures WellWorded(t[schema.flavor][i], config.adverbs, config.flavors)
        ensures t[schema.balance][i] == Some(Str("Balanced")) || WellWorded(t[schema.balance][i], config.adverbs, config.balance)
        ensures GrindOk(t[schema.grinder][i], t[schema.grind][i], config.ranges)
      {
        assert RowValid(schema, config, t, n, i);
      }
    }
  }

  /** The text checks pass exactly when every flavor is well worded and every
      balance is "Balanced" or well worded. */
  lemma TextStepPass(schema: Schema, config: Config, t: Table)
    requires schema.flavor in t && schema.balance in t
    ensures TextStep(schema, config, t).Pass? <==> FlavorsOk(t[schema.flavor], config) && BalancesOk(t[schema.balance], config)
  {
    FlavorStage(t[schema.flavor], config.adverbs, config.flavors);
    BalanceStage(t[schema.balance], config.adverbs, config.balance);
  }

  /** The grinder loop passes exactly when every row's grind columns are valid. */
  lemma GrinderStepPass(schema: Schema, config: Config, t: Table, n: nat)
    requires HasRows(t, n) && schema.grinder in t && schema.grind in t
    ensures GrinderStep(schema, config, t, n).Pass? <==> GrindsOk(t[schema.grinder], t[schema.grind], config.ranges)
  {
    GrinderStage(t[schema.grinder], t, schema.grind, config.ranges);
  }

  /** After the missing-value check, the validation is the score check, then the text checks, then the grinder loop. */
  lemma ValidateAfterNan(schema: Schema, config: Config, t: Table, n: nat)
    requires HasRows(t, n) && schema.score in t
    requires CheckNanValues(t, schema.required).Pass?
    ensures Validate(schema, config, t, n).Pass? <==>
      CheckScores(t[schema.score]).Pass? && TextStep(schema, config, t).Pass? && GrinderStep(schema, config, t, n).Pass?
  {
    assert Validate(schema, config, t, n) == ScoreOnward(schema, config, t, n);
  }

  /** Once the missing-value check passes, the rest of the validation passes
      exactly when the remaining column rules hold. */
  lemma LaterStages(schema: Schema, config: Config, t: Table, n: nat)
    requires HasColumns(schema, t) && HasRows(t, n)
    requires CheckNanValues(t, schema.required).Pass?
    ensures Validate(schema, config, t, n).Pass? <==> ColumnsValid(schema, config, t, n)
  {
    assert NoMissing(schema, t, n) by { NanStage(schema, t, n); }
    ValidateAfterNan(schema, config, t, n);
    TextStepPass(schema, config, t);
    GrinderStepPass(schema, config, t, n);
  }

  /** The validation passes exactly on batches whose every row satisfies the reference rule. */
  lemma ValidateAcceptsValidBatches(schema: Schema, config: Config, t: Table, n: nat)
    requires WellFormed(schema) && HasRows(t, n)
    ensures Validate(schema, config, t, n).Pass? <==> ValidBatch(schema, config, t, n)
  {
    NanStage(schema, t, n);
    var req := schema.required;
    if HasColumns(schema, t) {
      RowsByColumn(schema, config, t, n);
      if CheckNanValues(t, req).Pass? {
        LaterStages(schema, config, t, n);
      }
    } else if CheckNanValues(t, req).Pass? {
      assert schema.score in t && schema.flavor in t && schema.balance in t && schema.grind in t by {
        var a :| 0 <= a < |req| && req[a] == schema.score;
        var b :| 0 <= b < |req| && req[b] == schema.flavor;
        var c :| 0 <= c < |req| && req[c] == schema.balance;
        var d :| 0 <= d < |req| && req[d] == schema.grind;
      }
      assert schema.grinder !in t;
    }
  }

  /** `preprocess_data` returns a batch exactly when parsing succeeds and the
      parsed batch satisfies the reference rule row by row; the batch it returns
      is the parsed one. */
  lemma PreprocessAccepts(schema: Schema, config: Config, t: Table, n: nat)
    requires WellFormed(schema) && HasRows(t, n)
    ensures ParseStage(schema, t).Ok? ==> HasRows(ParseStage(schema, t).value, n)
    ensures Preprocess(schema, config, t, n).Ok? <==>
      ParseStage(schema, t).Ok? && ValidBatch(schema, config, ParseStage(schema, t).value, n)
    ensures Preprocess(schema, config, t, n).Ok? ==>
      Preprocess(schema, config, t, n).value == ParseStage(schema, t).value
  {
    var p := ParseStage(schema, t);
    if p.Ok? {
      ParseStageRows(schema, t, n);
      var v := Validate(schema, config, p.value, n);
      assert Preprocess(schema, config, t, n) == if v.Pass? then Ok(p.value) else Err(v.error);
      ValidateAcceptsValidBatches(schema, config, p.value, n);
    } else {
      assert Preprocess(schema, config, t, n) == Err(p.error);
    }
  }

  // ---------------------------------------------------------------------------
  // The coffee pipeline as written: `validate_text` raises on an empty selection
  // and `validate_grind_settings` lists every cell that is not already an integer
  // ---------------------------------------------------------------------------

  /** Some row's balance is other than the exact cell "Balanced". */
  predicate SomeUnbalanced(col: Column) {
    exists i :: 0 <= i < |col| && col[i] != Some(Str("Balanced"))
  }

  /** The balance selection is empty exactly when every balance is "Balanced". */
  lemma UnbalancedSelection(col: Column)
    ensures |Select(col, NotBalanced(col))| > 0 <==> SomeUnbalanced(col)
  {
    var es := Select(col, NotBalanced(col));
    if SomeUnbalanced(col) {
      var i :| 0 <= i < |col| && col[i] != Some(Str("Balanced"));
      assert Entry(i, col[i]) in es;
    }
    if |es| > 0 {
      assert es[0] in es;
    }
  }

  /** Neither text check sees an empty column: the flavor column has a row and
      some balance is not "Balanced". */
  predicate TextSelectionsNonEmpty(schema: Schema, t: Table) {
    && schema.flavor in t && schema.balance in t
    && |t[schema.flavor]| > 0 && SomeUnbalanced(t[schema.balance])
  }

  /** One pass of the per-grinder loop with `validate_grind_settings` as written. */
  function GrinderCheckAsWritten(g: Cell, grinderCol: Column, t: Table, grind: string, ranges: map<string, Range>): (r: Outcome<Error>)
    requires grind in t ==> |t[grind]| == |grinderCol|
    ensures r.Pass? <==> GrinderCheck(g, grinderCol, t, grind, ranges).Pass?
    ensures r.Fail? && !r.error.NonInteger? ==> r == GrinderCheck(g, grinderCol, t, grind, ranges)
  {
    if !IsText(g) then Fail(NotAName(g))
    else
      var key := NormalizeName(g.value.s);
      if key !in ranges then Fail(UnknownGrinder(g.value.s))
      else if grind !in t then Fail(KeyMissing(grind))
      else ValidateGrindSettingsAsWritten(Select(t[grind], SameGrinder(grinderCol, g)), ranges[key].lo, ranges[key].hi)
  }

  /** The grinder loop as written, stopping at the first grinder that fails. */
  function CheckGrindersAsWritten(gs: seq<Cell>, grinderCol: Column, t: Table, grind: string, ranges: map<string, Range>): (r: Outcome<Error>)
    requires grind in t ==> |t[grind]| == |grinderCol|
    ensures r.Pass? <==> CheckGrinders(gs, grinderCol, t, grind, ranges).Pass?
    ensures r.Fail? ==> exists k :: 0 <= k < |gs| && r == GrinderCheckAsWritten(gs[k], grinderCol, t, grind, ranges)
  {
    if |gs| == 0 then Pass
    else
      var first := GrinderCheckAsWritten(gs[0], grinderCol, t, grind, ranges);
      if first.Fail? then first
      else
        var rest := CheckGrindersAsWritten(gs[1..], grinderCol, t, grind, ranges);
        assert forall k :: 1 <= k < |gs| ==> gs[k] == gs[1..][k - 1];
        rest
  }

  function GrinderStepAsWritten(schema: Schema, config: Config, t: Table, n: nat): (r: Outcome<Error>)
    requires HasRows(t, n)
    ensures r.Pass? <==> GrinderStep(schema, config, t, n).Pass?
  {
    if schema.grinder !in t then Fail(KeyMissing(schema.grinder))
    else
      var grinderCol := t[schema.grinder];
      CheckGrindersAsWritten(Unique(grinderCol), grinderCol, t, schema.grind, config.ranges)
  }

  /** The two text checks with `validate_text` as written: an empty flavor column,
      or a balance column whose every cell is "Balanced", raises `KeyError` on `adverbs`. */
  function TextStepAsWritten(schema: Schema, config: Config, t: Table): (r: Outcome<Error>)
    ensures r.Pass? <==> TextStep(schema, config, t).Pass? && TextSelectionsNonEmpty(schema, t)
    ensures schema.flavor in t && |t[schema.flavor]| == 0 ==> r == Fail(KeyMissing("adverbs"))
    ensures (TextStep(schema, config, t).Pass? && schema.flavor in t && |t[schema.flavor]| > 0 &&
             schema.balance in t && !SomeUnbalanced(t[schema.balance])) ==> r == Fail(KeyMissing("adverbs"))
  {
    if schema.flavor !in t then Fail(KeyMissing(schema.flavor))
    else
      var flavor := ValidateTextAsWritten(Entries(t[schema.flavor]), config.adverbs, config.flavors);
      if flavor.Fail? then flavor
      else if schema.balance !in t then Fail(KeyMissing(schema.balance))
      else
        var balanceCol := t[schema.balance];
        UnbalancedSelection(balanceCol);
        ValidateTextAsWritten(Select(balanceCol, NotBalanced(balanceCol)), config.adverbs, config.balance)
  }

  /** `preprocess_data`'s validation sequence with the helpers as written. */
  function ValidateAsWritten(schema: Schema, config: Config, t: Table, n: nat): (r: Outcome<Error>)
    requires HasRows(t, n)
    ensures r.Pass? <==> Validate(schema, config, t, n).Pass? && TextSelectionsNonEmpty(schema, t)
  {
    var nan := CheckNanValues(t, schema.required);
    if nan.Fail? then nan
    else if schema.score !in t then Fail(KeyMissing(schema.score))
    else
      var scores := CheckScores(t[schema.score]);
      if scores.Fail? then scores
      else
        var text := TextStepAsWritten(schema, config, t);
        if text.Fail? then text else GrinderStepAsWritten(schema, config, t, n)
  }

  /** `preprocess_data` of load_coffee_logs.py as written. */
  function PreprocessAsWritten(schema: Schema, config: Config, t: Table, n: nat): (r: Result<Table, Error>)
    requires WellFormed(schema) && HasRows(t, n)
    ensures r.Ok? ==> Preprocess(schema, config, t, n) == r
  {
    match ParseStage(schema, t)
    case Err(e) => Err(e)
    case Ok(parsed) =>
      ParseStageRows(schema, t, n);
      match ValidateAsWritten(schema, config, parsed, n)
      case Fail(e) => Err(e)
      case Pass => Ok(parsed)
  }

  /** As written, `preprocess_data` returns a batch exactly when the corrected
      pipeline would, the batch has a row, and some parsed balance is not "Balanced". */
  lemma PreprocessAsWrittenAccepts(schema: Schema, config: Config, t: Table, n: nat)
    requires WellFormed(schema) && HasRows(t, n)
    ensures ParseStage(schema, t).Ok? ==> HasRows(ParseStage(schema, t).value, n)
    ensures PreprocessAsWritten(schema, config, t, n).Ok? <==>
      && ParseStage(schema, t).Ok? && ValidBatch(schema, config, ParseStage(schema, t).value, n)
      && n > 0 && SomeUnbalanced(ParseStage(schema, t).value[schema.balance])
  {
    var p := ParseStage(schema, t);
    PreprocessAccepts(schema, config, t, n);
    if p.Ok? {
      ParseStageRows(schema, t, n);
      var v := ValidateAsWritten(schema, config, p.value, n);
      assert PreprocessAsWritten(schema, config, t, n) == if v.Pass? then Ok(p.value) else Err(v.error);
      ValidateAcceptsValidBatches(schema, config, p.value, n);
    } else {
      assert PreprocessAsWritten(schema, config, t, n) == Err(p.error);
    }
  }

  /** A batch whose every parsed balance is "Balanced" is rejected as written,
      though the corrected pipeline accepts it whenever its rows are valid. */
  lemma AllBalancedRejectedAsWritten(schema: Schema, config: Config, t: Table, n: nat)
    requires WellFormed(schema) && HasRows(t, n) && ParseStage(schema, t).Ok?
    requires var parsed := ParseStage(schema, t).value;
      schema.balance in parsed && forall i :: 0 <= i < |parsed[schema.balance]| ==> parsed[schema.balance][i] == Some(Str("Balanced"))
    ensures PreprocessAsWritten(schema, config, t, n).Err?
    ensures HasRows(ParseStage(schema, t).value, n)
    ensures Preprocess(schema, config, t, n).Ok? <==> ValidBatch(schema, config, ParseStage(schema, t).value, n)
  {
    PreprocessAsWrittenAccepts(schema, config, t, n);
    PreprocessAccepts(schema, config, t, n);
  }

  /** `preprocess_data` of load_beanconqueror_logs.py as written: `check_nan_values`
      declares only the table, so the call that also passes `columns=` and
      `timestamp_col=` raises `TypeError`, naming its first keyword, on every batch
      whose notes parse. */
  function PreprocessBeanconquerorAsWritten(config: Config, t: Table, n: nat): (r: Result<Table, Error>)
    requires HasRows(t, n)
    ensures r.Err?
  {
    SchemasWellFormed();
    match ParseStage(BeanconquerorSchema, t)
    case Err(e) => Err(e)
    case Ok(_) => Err(UnexpectedKeyword("columns"))
  }

  /** The call as written rejects every batch the intended call accepts. */
  lemma BeanconquerorRejectsValidBatches(config: Config, t: Table, n: nat)
    requires HasRows(t, n)
    ensures WellFormed(BeanconquerorSchema)
    ensures Preprocess(BeanconquerorSchema, config, t, n).Ok? ==>
      && ParseStage(BeanconquerorSchema, t).Ok?
      && PreprocessBeanconquerorAsWritten(config, t, n) == Err(UnexpectedKeyword("columns"))
  {
    SchemasWellFormed();
    PreprocessAccepts(BeanconquerorSchema, config, t, n);
  }

  /** A missing value is reported before anything else is checked. */
  lemma MissingValuesFirst(schema: Schema, config: Config, t: Table, n: nat)
    requires HasRows(t, n) && HasColumns(schema, t) && !NoMissing(schema, t, n)
    ensures Validate(schema, config, t, n).Fail? && Validate(schema, config, t, n).error.MissingValues?
  {
    NanStage(schema, t, n);
  }

  /** With no missing values, a zero score is reported before any text is checked. */
  lemma UnscoredSecond(schema: Schema, config: Config, t: Table, n: nat)
    requires HasRows(t, n) && HasColumns(schema, t) && NoMissing(schema, t, n)
    requires !Scored(t[schema.score])
    ensures Validate(schema, config, t, n).Fail? && Validate(schema, config, t, n).error.Unscored?
  {
    NanStage(schema, t, n);
  }

  /** Once the missing values and scores pass, the validation continues with the text checks. */
  lemma ReachesText(schema: Schema, config: Config, t: Table, n: nat)
    requires HasRows(t, n) && HasColumns(schema, t) && NoMissing(schema, t, n) && Scored(t[schema.score])
    ensures Validate(schema, config, t, n) == TextOnward(schema, config, t, n)
  {
    NanStage(schema, t, n);
    assert Validate(schema, config, t, n) == ScoreOnward(schema, config, t, n);
  }

  /** With the earlier checks passing, a bad flavor is reported before the balance is checked. */
  lemma FlavorThird(schema: Schema, config: Config, t: Table, n: nat)
    requires HasRows(t, n) && HasColumns(schema, t) && NoMissing(schema, t, n)
    requires Scored(t[schema.score]) && !FlavorsOk(t[schema.flavor], config)
    ensures Validate(schema, config, t, n) == ValidateText(Entries(t[schema.flavor]), config.adverbs, config.flavors)
    ensures Validate(schema, config, t, n).Fail?
  {
    ReachesText(schema, config, t, n);
    FlavorStage(t[schema.flavor], config.adverbs, config.flavors);
  }

  /** With flavors valid, a bad balance is reported before any grinder is checked. */
  lemma BalanceFourth(schema: Schema, config: Config, t: Table, n: nat)
    requires HasRows(t, n) && HasColumns(schema, t) && NoMissing(schema, t, n)
    requires Scored(t[schema.score]) && FlavorsOk(t[schema.flavor], config) && !BalancesOk(t[schema.balance], config)
    ensures var col := t[schema.balance];
      Validate(schema, config, t, n) == ValidateText(Select(col, NotBalanced(col)), config.adverbs, config.balance)
    ensures Validate(schema, config, t, n).Fail?
  {
    ReachesText(schema, config, t, n);
    FlavorStage(t[schema.flavor], config.adverbs, config.flavors);
    BalanceStage(t[schema.balance], config.adverbs, config.balance);
    var col := t[schema.balance];
    assert TextStep(schema, config, t) == ValidateText(Select(col, NotBalanced(col)), config.adverbs, config.balance);
  }

  /** With every other rule holding, a bad grind row gives a grinder error. */
  lemma GrindersLast(schema: Schema, config: Config, t: Table, n: nat)
    requires HasRows(t, n) && HasColumns(schema, t) && NoMissing(schema, t, n)
    requires Scored(t[schema.score]) && FlavorsOk(t[schema.flavor], config) && BalancesOk(t[schema.balance], config)
    requires !GrindsOk(t[schema.grinder], t[schema.grind], config.ranges)
    ensures var r := Validate(schema, config, t, n);
      r.Fail? && (r.error.NotAName? || r.error.UnknownGrinder? || r.error.NonInteger? || r.error.OutOfRange?)
  {
    ReachesText(schema, config, t, n);
    TextStepPass(schema, config, t);
    assert Validate(schema, config, t, n) == GrinderStep(schema, config, t, n);
    GrinderStepPass(schema, config, t, n);
    GrinderStepErrors(schema, config, t, n);
  }

  lemma GrinderStepErrors(schema: Schema, config: Config, t: Table, n: nat)
    requires HasRows(t, n) && schema.grinder in t && schema.grind in t
    ensures var r := GrinderStep(schema, config, t, n);
      r.Fail? ==> r.error.NotAName? || r.error.UnknownGrinder? || r.error.NonInteger? || r.error.OutOfRange?
  {
    var col := t[schema.grinder];
    var r := CheckGrinders(Unique(col), col, t, schema.grind, config.ranges);
    if r.Fail? {
      var k :| 0 <= k < |Unique(col)| && r == GrinderCheck(Unique(col)[k], col, t, schema.grind, config.ranges);
    }
  }

  // ---------------------------------------------------------------------------
  // Brewing-tool names (load_beanconqueror_logs.py:369-372)
  // ---------------------------------------------------------------------------

  datatype Tool = Tool(name: string, uuid: string)

  /** The UUID-to-name dictionary built by the loop over the backup's tools; a
      UUID listed twice keeps the name of its last entry. */
  function ToolMap(tools: seq<Tool>): (m: map<string, string>)
    ensures m.Keys == set t | t in tools :: t.uuid
    ensures forall k :: 0 <= k < |tools| && (forall j :: k < j < |tools| ==> tools[j].uuid != tools[k].uuid) ==>
      m[tools[k].uuid] == tools[k].name
  {
    if |tools| == 0 then map[]
    else
      var init := tools[..|tools| - 1];
      var last := tools[|tools| - 1];
      assert tools == init + [last];
      ToolMap(init)[last.uuid := last.name]
  }
}

=== FILE: strings.dfy ===
/** Character classes and literal (non-regex) string operations: Python's
    `str.split`, `str.replace(pat, '')` and the literal-alternation regex
    substitution the notes parser uses to delete label tokens. */
module Strings {
  import opened Wrappers

  /** Python's `\s` for `str` patterns: exactly the characters `str.isspace()` accepts. */
  predicate IsSpace(c: char) {
    || c == ' ' || c == '\t' || c == '\n' || c == '\r'
    || c == '\U{0B}' || c == '\U{0C}' || '\U{1C}' <= c <= '\U{1F}'
    || c == '\U{85}' || c == '\U{A0}' || c == '\U{1680}'
    || '\U{2000}' <= c <= '\U{200A}'
    || c == '\U{2028}' || c == '\U{2029}' || c == '\U{202F}' || c == '\U{205F}' || c == '\U{3000}'
  }

  predicate IsDigit(c: char) {
    '0' <= c <= '9'
  }

  /** Number of occurrences of `c` in `s`. */
  function Count(s: string, c: char): nat {
    if |s| == 0 then 0 else (if s[0] == c then 1 else 0) + Count(s[1..], c)
  }

  lemma {:induction false} CountAppend(a: string, b: string, c: char)
    ensures Count(a + b, c) == Count(a, c) + Count(b, c)
    decreases |a|
  {
    if |a| > 0 {
      assert (a + b)[1..] == a[1..] + b;
      CountAppend(a[1..], b, c);
    } else {
      assert a + b == b;
    }
  }

  lemma {:induction false} CountAbsent(s: string, c: char)
    requires c !in s
    ensures Count(s, c) == 0
    decreases |s|
  {
    if |s| > 0 {
      assert s[0] != c;
      CountAbsent(s[1..], c);
    }
  }

  /** Position of the first `c` in `s`. */
  function IndexOf(s: string, c: char): (i: nat)
    requires c in s
    ensures i < |s| && s[i] == c && c !in s[..i]
  {
    if s[0] == c then 0 else 1 + IndexOf(s[1..], c)
  }

  /** Counting from the first occurrence on. */
  lemma CountAtFirst(s: string, c: char)
    requires c in s
    ensures Count(s, c) == 1 + Count(s[IndexOf(s, c) + 1..], c)
  {
    var i := IndexOf(s, c);
    assert s == s[..i] + ([s[i]] + s[i + 1..]);
    CountAppend(s[..i], [s[i]] + s[i + 1..], c);
    CountAbsent(s[..i], c);
    assert ([s[i]] + s[i + 1..])[1..] == s[i + 1..];
  }

  /** A prefix of a string without `c` is without `c`. */
  lemma PrefixLacks(s: string, n: nat, c: char)
    requires c !in s && n <= |s|
    ensures c !in s[..n]
  {
    forall i | 0 <= i < n
      ensures s[..n][i] != c
    {
      assert s[..n][i] == s[i];
    }
  }

  // ---------------------------------------------------------------------------
  // Python `str.split(sep)` with a one-character separator, and its inverse
  // ---------------------------------------------------------------------------

  /** `sep.join(xs)`. */
  function Join(xs: seq<string>, sep: char): string
    requires |xs| > 0
  {
    if |xs| == 1 then xs[0] else xs[0] + [sep] + Join(xs[1..], sep)
  }

  /** Python's `s.split(sep)` for a one-character `sep`: every occurrence of `sep`
      separates two pieces, so empty pieces are kept and `''.split(' ') == ['']`. */
  function Split(s: string, sep: char): (r: seq<string>)
    ensures |r| == Count(s, sep) + 1
    ensures forall k :: 0 <= k < |r| ==> sep !in r[k]
    ensures Join(r, sep) == s
    decreases |s|
  {
    if sep !in s then
      CountAbsent(s, sep);
      [s]
    else
      var i := IndexOf(s, sep);
      CountAtFirst(s, sep);
      assert s == s[..i] + [sep] + s[i+1..];
      [s[..i]] + Split(s[i+1..], sep)
  }

  /** Splitting a joined list gives the list back when no piece holds the separator. */
  lemma {:induction false} SplitJoin(xs: seq<string>, sep: char)
    requires |xs| > 0
    requires forall k :: 0 <= k < |xs| ==> sep !in xs[k]
    ensures Split(Join(xs, sep), sep) == xs
    decreases |xs|
  {
    var s := Join(xs, sep);
    if |xs| > 1 {
      var rest := Join(xs[1..], sep);
      assert s == xs[0] + [sep] + rest;
      assert s[|xs[0]|] == sep;
      assert s[..|xs[0]|] == xs[0];
      assert sep !in xs[0];
      assert IndexOf(s, sep) == |xs[0]|;
      assert s[|xs[0]| + 1..] == rest;
      SplitJoin(xs[1..], sep);
      assert Split(s, sep) == [xs[0]] + xs[1..];
    }
  }

  // ---------------------------------------------------------------------------
  // Whitespace trimming
  // ---------------------------------------------------------------------------

  /** `s` with every leading whitespace character removed (`TrimLeftSpec` states what that means). */
  function TrimLeft(s: string): (r: string)
    ensures |r| <= |s|
    decreases |s|
  {
    if |s| > 0 && IsSpace(s[0]) then TrimLeft(s[1..]) else s
  }

  /** `s` with every trailing whitespace character removed (`TrimRightSpec` states what that means). */
  function TrimRight(s: string): (r: string)
    ensures |r| <= |s|
    decreases |s|
  {
    if |s| > 0 && IsSpace(s[|s| - 1]) then TrimRight(s[..|s| - 1]) else s
  }

  /** `TrimLeft(s)` is the suffix of `s` left after its whole leading whitespace run. */
  lemma {:induction false} TrimLeftSpec(s: string)
    ensures TrimLeft(s) == s[|s| - |TrimLeft(s)|..]
    ensures forall i :: 0 <= i < |s| - |TrimLeft(s)| ==> IsSpace(s[i])
    ensures TrimLeft(s) == "" || !IsSpace(TrimLeft(s)[0])
    decreases |s|
  {
    if |s| > 0 && IsSpace(s[0]) {
      TrimLeftSpec(s[1..]);
    }
  }

  /** `TrimRight(s)` is the prefix of `s` left after its whole trailing whitespace run. */
  lemma {:induction false} TrimRightSpec(s: string)
    ensures TrimRight(s) == s[..|TrimRight(s)|]
    ensures forall i :: |TrimRight(s)| <= i < |s| ==> IsSpace(s[i])
    ensures TrimRight(s) == "" || !IsSpace(TrimRight(s)[|TrimRight(s)| - 1])
    decreases |s|
  {
    if |s| > 0 && IsSpace(s[|s| - 1]) {
      TrimRightSpec(s[..|s| - 1]);
    }
  }

  // ---------------------------------------------------------------------------
  // Deleting literal patterns: `re.sub('(P1)|(P2)|...', '', s)` for literal
  // patterns, and `s.replace(p, '')`
  // ---------------------------------------------------------------------------

  predicate NonEmptyPatterns(pats: seq<string>) {
    forall k :: 0 <= k < |pats| ==> |pats[k]| > 0
  }

  /** No pattern of `pats` begins at position `i` of `s`. */
  predicate NoMatchAt(s: string, i: nat, pats: seq<string>)
    requires i <= |s|
  {
    forall k :: 0 <= k < |pats| ==> !(pats[k] <= s[i..])
  }

  /** No pattern of `pats` occurs anywhere in `s`. */
  predicate NoOccurrence(s: string, pats: seq<string>) {
    forall i :: 0 <= i < |s| ==> NoMatchAt(s, i, pats)
  }

  /** The alternative a regex alternation tries first and that matches at the start of `s`. */
  function FirstMatch(s: string, pats: seq<string>): (r: Option<nat>)
    ensures r.Some? ==> r.value < |pats| && pats[r.value] <= s
    ensures r.Some? ==> forall k :: 0 <= k < r.value ==> !(pats[k] <= s)
    ensures r.None? <==> NoMatchAt(s, 0, pats)
  {
    if |pats| == 0 then None
    else if pats[0] <= s then Some(0)
    else match FirstMatch(s, pats[1..])
      case None => None
      case Some(k) => Some(k + 1)
  }

  /** `r` is `s` with some non-overlapping pattern occurrences deleted and every
      other character kept, in order. */
  ghost predicate Unlabels(s: string, r: string, pats: seq<string>)
    requires NonEmptyPatterns(pats)
    decreases |s|
  {
    if |s| == 0 then r == ""
    else
      || (exists k :: 0 <= k < |pats| && pats[k] <= s && Unlabels(s[|pats[k]|..], r, pats))
      || (|r| > 0 && r[0] == s[0] && Unlabels(s[1..], r[1..], pats))
  }

  /** Left-to-right scan that deletes every pattern occurrence it meets, trying
      the alternatives in order at each position, as Python's `re.sub` does
      for an alternation of literals (and `str.replace(p, '')` for one pattern). */
  function RemoveAll(s: string, pats: seq<string>): (r: string)
    requires NonEmptyPatterns(pats)
    ensures |r| <= |s|
    decreases |s|
  {
    if |s| == 0 then ""
    else match FirstMatch(s, pats)
      case Some(k) => RemoveAll(s[|pats[k]|..], pats)
      case None => [s[0]] + RemoveAll(s[1..], pats)
  }

  /** Deletion removes nothing but pattern occurrences: every other character
      of the input survives, in order. */
  lemma {:induction false} RemoveAllOnlyDeletesPatterns(s: string, pats: seq<string>)
    requires NonEmptyPatterns(pats)
    ensures Unlabels(s, RemoveAll(s, pats), pats)
    decreases |s|
  {
    if |s| > 0 {
      match FirstMatch(s, pats)
      case Some(k) =>
        RemoveAllOnlyDeletesPatterns(s[|pats[k]|..], pats);
      case None =>
        var r := RemoveAll(s, pats);
        RemoveAllOnlyDeletesPatterns(s[1..], pats);
        assert r[1..] == RemoveAll(s[1..], pats);
    }
  }

  /** Where no pattern starts, the scan keeps the character and moves on. */
  lemma RemoveAllKeeps(s: string, pats: seq<string>)
    requires NonEmptyPatterns(pats) && |s| > 0 && NoMatchAt(s, 0, pats)
    ensures RemoveAll(s, pats) == [s[0]] + RemoveAll(s[1..], pats)
  {
    assert FirstMatch(s, pats).None?;
  }

  lemma NoMatchTail(a: string, b: string, pats: seq<string>)
    requires |a| > 0
    requires forall i :: 0 <= i < |a| ==> NoMatchAt(a + b, i, pats)
    ensures forall i :: 0 <= i < |a[1..]| ==> NoMatchAt(a[1..] + b, i, pats)
  {
    var s := a + b;
    assert s[1..] == a[1..] + b;
    forall i | 0 <= i < |a[1..]|
      ensures NoMatchAt(a[1..] + b, i, pats)
    {
      NoMatchShift(s, i + 1, pats);
    }
  }

  /** Deletion leaves a prefix in which no pattern starts untouched. */
  lemma {:induction false} RemoveAllAppend(a: string, b: string, pats: seq<string>)
    requires NonEmptyPatterns(pats)
    requires forall i :: 0 <= i < |a| ==> NoMatchAt(a + b, i, pats)
    ensures RemoveAll(a + b, pats) == a + RemoveAll(b, pats)
    decreases |a|
  {
    if |a| > 0 {
      var s := a + b;
      RemoveAllKeeps(s, pats);
      NoMatchTail(a, b, pats);
      RemoveAllAppend(a[1..], b, pats);
      AppendTail(a, b);
      ConsTail(a, RemoveAll(b, pats));
    } else {
      assert a + b == b;
    }
  }

  lemma AppendTail(a: string, b: string)
    requires |a| > 0
    ensures (a + b)[1..] == a[1..] + b
  {
  }

  lemma ConsTail(a: string, c: string)
    requires |a| > 0
    ensures [a[0]] + (a[1..] + c) == a + c
  {
    assert a == [a[0]] + a[1..];
  }

  lemma NoMatchShift(s: string, i: nat, pats: seq<string>)
    requires 1 <= i <= |s|
    requires NoMatchAt(s, i, pats)
    ensures NoMatchAt(s[1..], i - 1, pats)
  {
    assert s[1..][i - 1..] == s[i..];
  }

  /** A string free of every pattern is left unchanged. */
  lemma RemoveAllFree(s: string, pats: seq<string>)
    requires NonEmptyPatterns(pats)
    requires NoOccurrence(s, pats)
    ensures RemoveAll(s, pats) == s
  {
    assert s + "" == s;
    forall i | 0 <= i < |s|
      ensures NoMatchAt(s + "", i, pats)
    {
      assert NoMatchAt(s, i, pats);
    }
    RemoveAllAppend(s, "", pats);
  }

  /** A pattern at the front is deleted when no other alternative matches there. */
  lemma RemoveAllLeading(p: string, s: string, pats: seq<string>)
    requires NonEmptyPatterns(pats)
    requires p in pats
    requires forall k :: 0 <= k < |pats| && pats[k] <= p + s ==> pats[k] == p
    ensures RemoveAll(p + s, pats) == RemoveAll(s, pats)
  {
    var k :| 0 <= k < |pats| && pats[k] == p;
    assert p <= p + s;
    assert !NoMatchAt(p + s, 0, pats) by {
      assert (p + s)[0..] == p + s;
    }
    assert (p + s)[|p|..] == s;
  }
}

=== FILE: validators.dfy ===
/** The four column checks of `log_utils.py`. Each returns `Pass` or the error
    it raises, carrying exactly the offending rows and values. */
module Validators {
  import opened Wrappers
  import opened Strings
  import opened IntParse
  import opened Frame

  // ---------------------------------------------------------------------
  // Row selection helpers

  /** The rows of `col` from `from` on whose cell satisfies `p`, ascending. */
  function RowsWhereFrom(col: Column, p: Cell -> bool, from: nat): (r: seq<nat>)
    requires from <= |col|
    ensures forall i :: i in r <==> from <= i < |col| && p(col[i])
    ensures forall a, b :: 0 <= a < b < |r| ==> r[a] < r[b]
    ensures forall k :: 0 <= k < |r| ==> from <= r[k]
    decreases |col| - from
  {
    if from == |col| then []
    else
      var rest := RowsWhereFrom(col, p, from + 1);
      if p(col[from]) then [from] + rest else rest
  }

  /** The rows of `col` whose cell satisfies `p`, ascending. */
  function RowsWhere(col: Column, p: Cell -> bool): (r: seq<nat>)
    ensures forall i :: i in r <==> 0 <= i < |col| && p(col[i])
    ensures forall a, b :: 0 <= a < b < |r| ==> r[a] < r[b]
  {
    RowsWhereFrom(col, p, 0)
  }

  /** `xs` can be obtained from `ys` by deleting elements. */
  predicate SubsequenceOf<T(==)>(xs: seq<T>, ys: seq<T>)
    decreases |ys|
  {
    |xs| == 0 ||
    (|ys| > 0 && if xs[0] == ys[0] then SubsequenceOf(xs[1..], ys[1..]) else SubsequenceOf(xs, ys[1..]))
  }

  /** A subsequence of `ys` is a subsequence of `ys` with an element put in front. */
  lemma {:induction false} SubsequenceOfTail<T>(xs: seq<T>, y: T, ys: seq<T>)
    requires SubsequenceOf(xs, ys)
    ensures SubsequenceOf(xs, [y] + ys)
    decreases |ys|, 1
  {
    assert ([y] + ys)[1..] == ys;
    if |xs| > 0 && xs[0] == y {
      SubsequenceOfDrop(xs, ys);
    }
  }

  /** Dropping the head of a subsequence keeps it a subsequence. */
  lemma {:induction false} SubsequenceOfDrop<T>(xs: seq<T>, ys: seq<T>)
    requires |xs| > 0 && SubsequenceOf(xs, ys)
    ensures SubsequenceOf(xs[1..], ys)
    decreases |ys|, 0
  {
    assert [ys[0]] + ys[1..] == ys;
    if xs[0] == ys[0] {
      SubsequenceOfTail(xs[1..], ys[0], ys[1..]);
    } else {
      SubsequenceOfDrop(xs, ys[1..]);
      SubsequenceOfTail(xs[1..], ys[0], ys[1..]);
    }
  }

  // ---------------------------------------------------------------------
  // check_nan_values (log_utils.py:10-35)

  predicate IsNull(c: Cell) {
    c.None?
  }

  /** Rows of `col` holding a missing cell. */
  function NullRows(col: Column): (r: seq<nat>)
    ensures forall i :: i in r <==> 0 <= i < |col| && col[i].None?
    ensures forall a, b :: 0 <= a < b < |r| ==> r[a] < r[b]
  {
    RowsWhere(col, IsNull)
  }

  function ReportColumns(reports: seq<NullReport>): (r: seq<string>)
    ensures |r| == |reports|
    ensures forall j :: 0 <= j < |r| ==> r[j] == reports[j].column
  {
    seq(|reports|, j requires 0 <= j < |reports| => reports[j].column)
  }

  /** One report per listed column that holds a missing cell, in the listed order. */
  function NanReports(t: Table, required: seq<string>): (r: seq<NullReport>)
    requires forall k :: 0 <= k < |required| ==> required[k] in t
    ensures forall j :: 0 <= j < |r| ==>
      r[j].column in required && r[j].column in t && |r[j].rows| > 0 && r[j].rows == NullRows(t[r[j].column])
    ensures SubsequenceOf(ReportColumns(r), required)
  {
    if |required| == 0 then []
    else
      var rows := NullRows(t[required[0]]);
      var rest := NanReports(t, required[1..]);
      assert forall x :: x in required[1..] ==> x in required;
      if |rows| > 0 then
        var r := [NullReport(required[0], rows)] + rest;
        assert ReportColumns(r)[1..] == ReportColumns(rest);
        r
      else
        SubsequenceOfTail(ReportColumns(rest), required[0], required[1..]);
        assert [required[0]] + required[1..] == required;
        rest
  }

  /** Every listed column with a missing cell gets a report. */
  lemma {:induction false} NanReportsCover(t: Table, required: seq<string>, k: nat)
    requires forall k :: 0 <= k < |required| ==> required[k] in t
    requires k < |required| && |NullRows(t[required[k]])| > 0
    ensures required[k] in ReportColumns(NanReports(t, required))
  {
    var rest := NanReports(t, required[1..]);
    var r := NanReports(t, required);
    if |NullRows(t[required[0]])| > 0 {
      assert ReportColumns(r)[1..] == ReportColumns(rest);
      if k > 0 {
        NanReportsCover(t, required[1..], k - 1);
        assert required[k] in ReportColumns(r)[1..];
      } else {
        assert ReportColumns(r)[0] == required[0];
      }
    } else {
      NanReportsCover(t, required[1..], k - 1);
    }
  }

  /** The first listed column absent from the table: where the loop's `logs[col]` raises. */
  function FirstAbsent(t: Table, required: seq<string>): (r: Option<string>)
    ensures r.None? <==> forall k :: 0 <= k < |required| ==> required[k] in t
    ensures r.Some? ==> r.value in required && r.value !in t
  {
    if |required| == 0 then None
    else if required[0] !in t then Some(required[0])
    else
      var r := FirstAbsent(t, required[1..]);
      assert forall k :: 1 <= k < |required| ==> required[k] == required[1..][k - 1];
      r
  }

  /** `check_nan_values` over the listed columns: fails when a listed column is
      absent, or reports every listed column with a missing cell. */
  function CheckNanValues(t: Table, required: seq<string>): (r: Outcome<Error>)
    ensures r.Pass? <==> forall k :: 0 <= k < |required| ==>
      required[k] in t && forall i :: 0 <= i < |t[required[k]]| ==> t[required[k]][i].Some?
    ensures r.Fail? ==> r.error.KeyMissing? || r.error.MissingValues?
    ensures r.Fail? && r.error.KeyMissing? ==> r.error.column in required && r.error.column !in t
    ensures r.Fail? && r.error.MissingValues? ==>
      && (forall k :: 0 <= k < |required| ==> required[k] in t)
      && |r.error.reports| > 0
      && SubsequenceOf(ReportColumns(r.error.reports), required)
      && (forall j :: 0 <= j < |r.error.reports| ==>
            && r.error.reports[j].column in t
            && r.error.reports[j].rows == NullRows(t[r.error.reports[j].column])
            && |r.error.reports[j].rows| > 0)
      && (forall k :: 0 <= k < |required| && |NullRows(t[required[k]])| > 0 ==>
            required[k] in ReportColumns(r.error.reports))
  {
    match FirstAbsent(t, required)
    case Some(c) => Fail(KeyMissing(c))
    case None =>
      var reports := NanReports(t, required);
      forall k | 0 <= k < |required| && |NullRows(t[required[k]])| > 0
        ensures required[k] in ReportColumns(reports)
      {
        NanReportsCover(t, required, k);
      }
      if |reports| == 0 then
        assert forall k :: 0 <= k < |required| ==> |NullRows(t[required[k]])| == 0;
        Pass
      else
        var c, i := reports[0].column, reports[0].rows[0];
        assert i in NullRows(t[c]) && c in required;
        Fail(MissingValues(reports))
  }

  // ---------------------------------------------------------------------
  // check_scores (log_utils.py:38-49)

  /** A score of 0: the app's value for a brew that was never scored. */
  predicate IsZero(c: Cell) {
    c == Some(Int(0))
  }

  /** `check_scores`: fails exactly when some score is 0, listing every such row. */
  function CheckScores(col: Column): (r: Outcome<Error>)
    ensures r.Pass? <==> forall i :: 0 <= i < |col| ==> col[i] != Some(Int(0))
    ensures r.Fail? ==> r.error.Unscored? && |r.error.rows| > 0
    ensures r.Fail? ==> forall i :: i in r.error.rows <==> 0 <= i < |col| && col[i] == Some(Int(0))
    ensures r.Fail? ==> forall a, b :: 0 <= a < b < |r.error.rows| ==> r.error.rows[a] < r.error.rows[b]
  {
    var rows := RowsWhere(col, IsZero);
    if |rows| == 0 then Pass
    else
      assert rows[0] in rows;
      Fail(Unscored(rows))
  }

  // ---------------------------------------------------------------------
  // validate_text (log_utils.py:52-125)

  /** The space-separated words of a text cell (`str.split(' ')`); none for other cells. */
  function Words(c: Cell): (r: Option<seq<string>>)
    ensures r.Some? ==> |r.value| > 0
  {
    if IsText(c) then Some(Split(c.value.s, ' ')) else None
  }

  /** The number of columns this cell fills in `str.split(' ', expand=True)`;
      a missing or non-text cell is one missing value. */
  function WordCount(e: Entry): nat {
    match Words(e.cell)
    case None => 1
    case Some(w) => |w|
  }

  /** The width of `str.split(' ', expand=True)` over a Series: its widest row, 0 if empty. */
  function SplitWidth(col: seq<Entry>): (w: nat)
    ensures forall k :: 0 <= k < |col| ==> WordCount(col[k]) <= w
    ensures |col| > 0 ==> exists k :: 0 <= k < |col| && WordCount(col[k]) == w
    ensures |col| == 0 ==> w == 0
  {
    var counts := seq(|col|, k requires 0 <= k < |col| => WordCount(col[k]));
    var w := Widest(counts);
    assert forall k :: 0 <= k < |col| ==> counts[k] == WordCount(col[k]) <= w;
    w
  }

  /** Column `k` of the expanded row: the `k`-th word, or missing. */
  function Token(e: Entry, k: nat): Option<string> {
    match Words(e.cell)
    case Some(w) => if k < |w| then Some(w[k]) else None
    case None => None
  }

  /** The reference rule: a text cell is exactly one allowed adverb, a space, and one allowed adjective. */
  predicate WellWorded(c: Cell, adverbs: seq<string>, adjectives: seq<string>) {
    IsText(c) &&
    var w := Split(c.value.s, ' ');
    |w| == 2 && w[0] in adverbs && w[1] in adjectives
  }

  predicate BadAdverb(e: Entry, adverbs: seq<string>) {
    Token(e, 0).None? || Token(e, 0).value !in adverbs
  }

  predicate BlankAdjective(e: Entry) {
    Token(e, 1).None?
  }

  predicate BadAdjective(e: Entry, adjectives: seq<string>) {
    Token(e, 1).Some? && Token(e, 1).value !in adjectives
  }

  /** Cells with a non-missing value in expanded column `k` or any later one (`from <= k < width`). */
  function ExtraWords(col: seq<Entry>, from: nat, width: nat): (r: seq<Entry>)
    requires forall k :: 0 <= k < |col| ==> WordCount(col[k]) <= width
    ensures forall e :: e in r <==> e in col && Token(e, from).Some?
    decreases width - from
  {
    if from >= width then
      assert forall e :: e in col ==> Token(e, from).None? by {
        forall e | e in col
          ensures Token(e, from).None?
        {
          var k :| 0 <= k < |col| && col[k] == e;
          assert WordCount(e) <= from;
        }
      }
      []
    else
      var here := Filter(col, (e: Entry) => Token(e, from).Some?);
      var rest := ExtraWords(col, from + 1, width);
      assert forall e :: Token(e, from + 1).Some? ==> Token(e, from).Some?;
      here + rest
  }

  /** The four rules of `validate_text` together reject exactly the cells the reference rule rejects. */
  lemma RulesMatchReference(e: Entry, adverbs: seq<string>, adjectives: seq<string>)
    ensures !WellWorded(e.cell, adverbs, adjectives) <==>
      BadAdverb(e, adverbs) || BlankAdjective(e) || BadAdjective(e, adjectives) || Token(e, 2).Some?
  {
  }

  /** Every cell collected by the four rules (invalid adverb, missing adjective,
      invalid adjective, extra words), category by category. */
  function Violations(col: seq<Entry>, adverbs: seq<string>, adjectives: seq<string>): (r: seq<Entry>)
    ensures forall e :: e in r <==> e in col && !WellWorded(e.cell, adverbs, adjectives)
  {
    var width := SplitWidth(col);
    var adverb := Filter(col, (e: Entry) => BadAdverb(e, adverbs));
    var blank := Filter(col, BlankAdjective);
    var adjective := Filter(col, (e: Entry) => BadAdjective(e, adjectives));
    var extra := ExtraWords(col, 2, width);
    forall e | e in col
      ensures !WellWorded(e.cell, adverbs, adjectives) <==> e in adverb || e in blank || e in adjective || e in extra
    {
      RulesMatchReference(e, adverbs, adjectives);
    }
    adverb + blank + adjective + extra
  }

  /** The distinct cell values held by `es`. */
  function CellsOf(es: seq<Entry>): set<Cell> {
    set e | e in es :: e.cell
  }

  /** `drop_duplicates()` after skipping the values in `seen`: the first entry for each new value. */
  function DropSeen(es: seq<Entry>, seen: set<Cell>): (r: seq<Entry>)
    ensures forall e :: e in r ==> e in es && e.cell !in seen
    ensures CellsOf(r) == CellsOf(es) - seen
    ensures forall a, b :: 0 <= a < b < |r| ==> r[a].cell != r[b].cell
  {
    if |es| == 0 then []
    else if es[0].cell in seen then
      var r := DropSeen(es[1..], seen);
      assert CellsOf(es) == {es[0].cell} + CellsOf(es[1..]);
      r
    else
      var rest := DropSeen(es[1..], seen + {es[0].cell});
      var r := [es[0]] + rest;
      assert CellsOf(es) == {es[0].cell} + CellsOf(es[1..]);
      assert CellsOf(r) == {es[0].cell} + CellsOf(rest);
      r
  }

  /** `Series.drop_duplicates()`: one entry per distinct cell value, the first one met. */
  function DropDuplicates(es: seq<Entry>): (r: seq<Entry>)
    ensures forall e :: e in r ==> e in es
    ensures CellsOf(r) == CellsOf(es)
    ensures forall a, b :: 0 <= a < b < |r| ==> r[a].cell != r[b].cell
  {
    DropSeen(es, {})
  }

  /** The width test fails exactly when no cell has two words, and then no cell is well worded. */
  lemma NarrowColumn(col: seq<Entry>, adverbs: seq<string>, adjectives: seq<string>)
    ensures SplitWidth(col) < 2 <==> forall k :: 0 <= k < |col| ==> WordCount(col[k]) < 2
    ensures SplitWidth(col) < 2 ==> forall k :: 0 <= k < |col| ==> !WellWorded(col[k].cell, adverbs, adjectives)
    ensures SplitWidth(col) >= 2 ==> |col| > 0
  {
    if SplitWidth(col) >= 2 && |col| > 0 {
      var k :| 0 <= k < |col| && WordCount(col[k]) == SplitWidth(col);
    }
  }

  /** No violation is collected exactly when every cell is well worded. */
  lemma NoViolations(col: seq<Entry>, adverbs: seq<string>, adjectives: seq<string>)
    ensures |Violations(col, adverbs, adjectives)| == 0 <==>
      forall k :: 0 <= k < |col| ==> WellWorded(col[k].cell, adverbs, adjectives)
  {
    var found := Violations(col, adverbs, adjectives);
    if |found| == 0 {
      assert forall k :: 0 <= k < |col| ==> col[k] !in found;
    } else {
      assert found[0] in found;
    }
  }

  /** `validate_text` as written. The width test only queues a message: an empty
      column splits into no columns, so looking up `adverbs` raises, and a column
      where no cell has two words splits into one, so looking up `adjectives` raises. */
  function ValidateTextAsWritten(col: seq<Entry>, adverbs: seq<string>, adjectives: seq<string>): (r: Outcome<Error>)
    ensures r == Fail(KeyMissing("adverbs")) <==> |col| == 0
    ensures r == Fail(KeyMissing("adjectives")) <==> |col| > 0 && forall k :: 0 <= k < |col| ==> WordCount(col[k]) < 2
    ensures r.Pass? <==> |col| > 0 && forall k :: 0 <= k < |col| ==> WellWorded(col[k].cell, adverbs, adjectives)
    ensures r.Fail? && r.error.InvalidText? ==>
      && (forall e :: e in r.error.values ==> e in col && !WellWorded(e.cell, adverbs, adjectives))
      && (forall e :: e in col && !WellWorded(e.cell, adverbs, adjectives) ==> e.cell in CellsOf(r.error.values))
      && (forall a, b :: 0 <= a < b < |r.error.values| ==> r.error.values[a].cell != r.error.values[b].cell)
    ensures r.Fail? ==> r.error.KeyMissing? || r.error.InvalidText?
  {
    NarrowColumn(col, adverbs, adjectives);
    if |col| == 0 then
      Fail(KeyMissing("adverbs"))
    else if SplitWidth(col) < 2 then
      Fail(KeyMissing("adjectives"))
    else
      var found := Violations(col, adverbs, adjectives);
      NoViolations(col, adverbs, adjectives);
      if |found| == 0 then Pass
      else Fail(InvalidText(DropDuplicates(found)))
  }

  /** `validate_text` as evidently intended: an empty column (every balance
      cell was "Balanced") has nothing to validate and passes. */
  function ValidateText(col: seq<Entry>, adverbs: seq<string>, adjectives: seq<string>): (r: Outcome<Error>)
    ensures r.Pass? <==> forall k :: 0 <= k < |col| ==> WellWorded(col[k].cell, adverbs, adjectives)
    ensures r == Fail(KeyMissing("adjectives")) <==> |col| > 0 && forall k :: 0 <= k < |col| ==> WordCount(col[k]) < 2
    ensures r != Fail(KeyMissing("adverbs"))
    ensures r.Fail? && r.error.InvalidText? ==>
      && (forall e :: e in r.error.values ==> e in col && !WellWorded(e.cell, adverbs, adjectives))
      && (forall e :: e in col && !WellWorded(e.cell, adverbs, adjectives) ==> e.cell in CellsOf(r.error.values))
      && (forall a, b :: 0 <= a < b < |r.error.values| ==> r.error.values[a].cell != r.error.values[b].cell)
    ensures r.Fail? ==> r.error.KeyMissing? || r.error.InvalidText?
  {
    if |col| == 0 then Pass else ValidateTextAsWritten(col, adverbs, adjectives)
  }

  /** The empty column is where the two versions part: as written it raises, as intended it passes. */
  lemma EmptyTextColumn(adverbs: seq<string>, adjectives: seq<string>)
    ensures ValidateTextAsWritten([], adverbs, adjectives) == Fail(KeyMissing("adverbs"))
    ensures ValidateText([], adverbs, adjectives) == Pass
  {
  }

  // ---------------------------------------------------------------------
  // validate_grind_settings (log_utils.py:128-173)

  /** `astype(int)` on one cell: integers stay, text goes through `int()`, a missing cell fails. */
  function Coerce(c: Cell): Option<int> {
    match c
    case Some(Int(i)) => Some(i)
    case Some(Str(s)) => ParseInt(s)
    case None => None
  }

  /** A cell `is_integer` rejects: anything but an integer. */
  predicate NotInteger(e: Entry) {
    !(e.cell.Some? && e.cell.value.Int?)
  }

  /** A cell `astype(int)` cannot convert. */
  predicate Uncoercible(e: Entry) {
    Coerce(e.cell).None?
  }

  predicate Coercible(es: seq<Entry>) {
    forall e :: e in es ==> Coerce(e.cell).Some?
  }

  /** The column after a successful `astype(int)`: every cell an integer, labels kept. */
  function Coerced(es: seq<Entry>): (r: seq<Entry>)
    requires Coercible(es)
    ensures |r| == |es|
    ensures forall k :: 0 <= k < |es| ==> r[k] == Entry(es[k].row, Some(Int(Coerce(es[k].cell).value)))
  {
    seq(|es|, k requires 0 <= k < |es| => Entry(es[k].row, Some(Int(Coerce(es[k].cell).value))))
  }

  /** An integer entry outside `[lo, hi]` (`~between(lo, hi, inclusive='both')`). */
  predicate OutsideRange(e: Entry, lo: int, hi: int) {
    e.cell.Some? && e.cell.value.Int? && !(lo <= e.cell.value.i <= hi)
  }

  /** The range half of `validate_grind_settings`, over an already coercible column. */
  function CheckRange(es: seq<Entry>, lo: int, hi: int): (r: Outcome<Error>)
    requires Coercible(es)
    ensures r.Pass? <==> forall e :: e in es ==> lo <= Coerce(e.cell).value <= hi
    ensures r.Fail? ==> r.error.OutOfRange? && r.error.lo == lo && r.error.hi == hi && |r.error.values| > 0
    ensures r.Fail? ==> forall x :: x in r.error.values ==>
      OutsideRange(x, lo, hi) && exists e :: e in es && e.row == x.row && Coerce(e.cell) == Some(x.cell.value.i)
    ensures r.Fail? ==> forall e :: e in es && !(lo <= Coerce(e.cell).value <= hi) ==>
      Entry(e.row, Some(Int(Coerce(e.cell).value))) in r.error.values
  {
    var ints := Coerced(es);
    var bad := Filter(ints, (x: Entry) => OutsideRange(x, lo, hi));
    forall e | e in es
      ensures Entry(e.row, Some(Int(Coerce(e.cell).value))) in ints
    {
      var k :| 0 <= k < |es| && es[k] == e;
      assert ints[k] == Entry(e.row, Some(Int(Coerce(e.cell).value)));
    }
    if |bad| == 0 then Pass
    else
      forall x | x in bad
        ensures exists e :: e in es && e.row == x.row && Coerce(e.cell) == Some(x.cell.value.i)
      {
        CoercedOrigin(es, x);
      }
      assert bad[0] in bad;
      Fail(OutOfRange(lo, hi, bad))
  }

  /** Every coerced entry comes from an entry of the original column with the same label. */
  lemma CoercedOrigin(es: seq<Entry>, x: Entry)
    requires Coercible(es) && x in Coerced(es)
    ensures x.cell.Some? && x.cell.value.Int?
    ensures exists e :: e in es && e.row == x.row && Coerce(e.cell) == Some(x.cell.value.i)
  {
    var k :| 0 <= k < |Coerced(es)| && Coerced(es)[k] == x;
    assert es[k] in es;
  }

  /** `validate_grind_settings` as written: when coercion fails, the report lists
      every cell that `pd.api.types.is_integer` rejects, which is every text cell;
      a column that converts gets the same range check as the corrected version. */
  function ValidateGrindSettingsAsWritten(es: seq<Entry>, lo: int, hi: int): (r: Outcome<Error>)
    ensures r.Pass? <==> forall e :: e in es ==> Coerce(e.cell).Some? && lo <= Coerce(e.cell).value <= hi
    ensures r.Fail? ==> r.error.NonInteger? || r.error.OutOfRange?
    ensures r.Fail? && r.error.NonInteger? ==>
      !Coercible(es) && forall e :: e in r.error.values <==> e in es && NotInteger(e)
    ensures Coercible(es) ==> r == ValidateGrindSettings(es, lo, hi)
  {
    if Coercible(es) then CheckRange(es, lo, hi)
    else Fail(NonInteger(Filter(es, NotInteger)))
  }

  /** `validate_grind_settings` as evidently intended: a column that fails coercion is
      reported by the cells that cannot be read as integers, with no range check;
      otherwise every value outside `[lo, hi]` (inclusive) is reported. */
  function ValidateGrindSettings(es: seq<Entry>, lo: int, hi: int): (r: Outcome<Error>)
    ensures r.Pass? <==> forall e :: e in es ==> Coerce(e.cell).Some? && lo <= Coerce(e.cell).value <= hi
    ensures r.Fail? ==> r.error.NonInteger? || r.error.OutOfRange?
    ensures r.Fail? && r.error.NonInteger? ==>
      |r.error.values| > 0 && forall e :: e in r.error.values <==> e in es && Coerce(e.cell).None?
    ensures r.Fail? && r.error.OutOfRange? ==>
      && Coercible(es) && r.error.lo == lo && r.error.hi == hi && |r.error.values| > 0
      && (forall x :: x in r.error.values ==>
            OutsideRange(x, lo, hi) && exists e :: e in es && e.row == x.row && Coerce(e.cell) == Some(x.cell.value.i))
      && (forall e :: e in es && !(lo <= Coerce(e.cell).value <= hi) ==>
            Entry(e.row, Some(Int(Coerce(e.cell).value))) in r.error.values)
  {
    if Coercible(es) then CheckRange(es, lo, hi)
    else
      var bad := Filter(es, Uncoercible);
      assert |bad| > 0 by {
        var e :| e in es && Coerce(e.cell).None?;
        assert e in bad;
      }
      Fail(NonInteger(bad))
  }

  /** A grinder's settings where two text cells read as integers and one does not. */
  const GrindExample := [Entry(0, Some(Str("18"))), Entry(1, Some(Str("22"))), Entry(2, Some(Str("abc")))]

  lemma GrindExampleCells()
    ensures Uncoercible(GrindExample[2]) && !Uncoercible(GrindExample[0]) && !Uncoercible(GrindExample[1])
    ensures !Coercible(GrindExample)
  {
    ExampleCells();
    assert GrindExample[2] in GrindExample;
  }

  /** Text cells that do read as integers ("18", "22") are still reported as
      non-integers by the code as written once one cell ("abc") fails coercion. */
  lemma CoercibleTextReportedAsWritten()
    ensures ValidateGrindSettingsAsWritten(GrindExample, 10, 30) == Fail(NonInteger(GrindExample))
  {
    var es := GrindExample;
    GrindExampleCells();
    assert Filter(es, NotInteger) == es by {
      assert Filter(es[2..], NotInteger) == es[2..];
      assert Filter(es[1..], NotInteger) == es[1..];
    }
  }

  /** As intended, only the cell that cannot be read is reported. */
  lemma OnlyUnreadableReported()
    ensures ValidateGrindSettings(GrindExample, 10, 30) == Fail(NonInteger([GrindExample[2]]))
  {
    var es := GrindExample;
    GrindExampleCells();
    assert Filter(es, Uncoercible) == [es[2]] by {
      assert Filter(es[2..], Uncoercible) == [es[2]];
      assert Filter(es[1..], Uncoercible) == [es[2]];
    }
  }

  lemma ExampleCells()
    ensures ParseInt("18") == Some(18) && ParseInt("22") == Some(22) && ParseInt("abc") == None
  {
    ReadsEighteen();
    ReadsTwentyTwo();
    RejectsLetters();
  }

  lemma ReadsEighteen()
    ensures ParseInt("18") == Some(18)
  {
    ParseShowInt(18);
    assert ShowInt(18) == "18";
  }

  lemma ReadsTwentyTwo()
    ensures ParseInt("22") == Some(22)
  {
    ParseShowInt(22);
    assert ShowInt(22) == "22";
  }

  lemma RejectsLetters()
    ensures ParseInt("abc") == None
  {
    assert TrimLeft("abc") == "abc";
    assert TrimRight("abc") == "abc";
  }
}

=== FILE: wrappers.dfy ===
/** Failure-carrying datatypes used throughout the model: a missing pandas cell
    is `None`, a raised exception is `Err`/`Fail`. */
module Wrappers {

  /** A value that may be absent (a pandas NaN/None cell). */
  datatype Option<+T> = None | Some(value: T)

  /** A computation that either returns a value or raises an error. */
  datatype Result<+T, +E> = Ok(value: T) | Err(error: E)

  /** A check that either passes silently or raises an error. */
  datatype Outcome<+E> = Pass | Fail(error: E)
}
